=== FILE: README.md ===
# Lightsaber: a Dafny model of the annotation processor's analyses and the injector hierarchy

Lightsaber is a dependency injection framework for the JVM. It has two halves:

- An annotation processor. It reads compiled classes with ASM, collects modules, provider methods and injection targets, and patches and writes class files.
- A small runtime. It creates injectors from modules, arranges them in a parent/child tree and hands out instances.

This project models the parts of both halves whose behaviour can be stated precisely:

| Dafny module | file | models |
|---|---|---|
| `Wrappers` | `wrappers.dfy` | `Option` and `Result` |
| `Names` | `names.dfy` | a total order on attribute names; the iteration order used for annotation attributes |
| `Annotations` | `annotations.dfy` | annotation values and `AnnotationDescriptor` equality, as its tests fix it |
| `Registry` | `registry.dfy` | `AnnotationRegistry`: registering defaults and resolving annotations against them |
| `ModuleMethodAnalysis` | `module_method_analysis.dfy` | `ModuleMethodAnalyzer`: `@Provides`, qualifier and scope collection for one module method |
| `InjectionTargetAnalysis` | `injection_target_analysis.dfy` | `InjectionTargetAnalyzer`: injectable fields, methods and constructors of one class |
| `ParameterizedTypes` | `parameterized_type.dfy` | `ParameterizedType`: equality, hash code and string form |
| `AccessFlags` | `access_flags.dfy` | `InjectableTargetPatcher`: access-flag rewriting and the dirty flag |
| `ClassHierarchy` | `class_hierarchy.dfy` | `StandaloneClassWriter.getCommonSuperClass` |
| `Injectors` | `injector.dfy` | the runtime injector tree: creation, lookup, `getAllProviders`, `getInstance` and singletons |
| `InjectorScenarios` | `injector_scenarios.dfy` | the runtime tests of `LightsaberTest` and `ChildInjectionTest`, as theorems about `Injectors` |

Modelling choices:

- Every visitor becomes a fold over the sequence of calls it receives, in order.
- Every mutable field becomes part of an explicit state value that is threaded through the calls.
- The annotation registry is an explicit value. Every resolution returns the registry it leaves behind.
- The injector world is an explicit value: a sequence of injector nodes plus a counter that gives each created object a fresh identity. Object identity (`assertSame` / `assertNotSame`) is modelled by these identities.
- `HashMap` iteration order over annotation attributes is not specified by Java. The model visits attributes in lexicographic order of their names. The order matters only for the registry state threaded through a resolution. The contract of `Registry.ResolveAnnotationContract` does not mention the order, but it is proved for this one order only.
- Termination:
  - Resolving defaults terminates because each resolution of defaults removes their type from the unresolved map first.
  - Class hierarchies are finite by a ghost rank on the registry. The source would loop forever on a cyclic superclass chain.

## Model

| member | source | states |
|---|---|---|
| Annotations.Puts | processor/src/test/java/io/michaelrocks/lightsaber/processor/annotations/AnnotationDescriptorTest.java:60-69 | After a sequence of `put`s, the map has the old keys plus every put name. |
| Annotations.PutsLastWins | processor/src/test/java/io/michaelrocks/lightsaber/processor/annotations/AnnotationDescriptorTest.java:60-69 | A name holds the value of its last put. |
| Annotations.PutsUntouched | processor/src/test/java/io/michaelrocks/lightsaber/processor/annotations/AnnotationDescriptorTest.java:60-69 | A key that no put names keeps its old value. |
| Annotations.InsertionOrderIrrelevant | processor/src/test/java/io/michaelrocks/lightsaber/processor/annotations/AnnotationDescriptorTest.java:58-73 | `equals` ignores the order of `put`s: two descriptors built from the same distinct (name, value) pairs in any order are equal, and have one attribute per pair. |
| Annotations.DifferingArrayElement | processor/src/test/java/io/michaelrocks/lightsaber/processor/annotations/AnnotationDescriptorTest.java:104-132 | `equals` looks inside array attributes: descriptors whose array attribute differs at one element are not equal. |
| Annotations.DifferentKindsDiffer | processor/src/test/java/io/michaelrocks/lightsaber/processor/annotations/AnnotationDescriptorTest.java:88-94 | Transcribes the test: descriptors of different annotation types are never equal, in either direction (immediate once equality is structural). |
| Annotations.NeverEqualsNullOrString | processor/src/test/java/io/michaelrocks/lightsaber/processor/annotations/AnnotationDescriptorTest.java:75-86 | Transcribes the test: a descriptor never equals null or a string (immediate once equality is structural). |
| Annotations.EqualsImpliesSameHash | processor/src/test/java/io/michaelrocks/lightsaber/processor/annotations/AnnotationDescriptorTest.java:34-36 | The `equals`/`hashCode` law: descriptors that `equals` relates get the same hash under any hash function on descriptors (immediate once equality is structural). |
| Names.LeastUnique | processor/src/main/java/io/michaelrocks/lightsaber/processor/annotations/AnnotationRegistry.java:70 | The name order is total: a set has at most one least element, so the attribute visiting order is well defined. |
| Names.Least | processor/src/main/java/io/michaelrocks/lightsaber/processor/annotations/AnnotationRegistry.java:70 | The least name of a non-empty set is in the set and below every other element. |
| Names.Ordered | processor/src/main/java/io/michaelrocks/lightsaber/processor/annotations/AnnotationRegistry.java:70 | The attribute visiting order lists each name of the map exactly once, in ascending order. |
| Names.OrderedSet | processor/src/main/java/io/michaelrocks/lightsaber/processor/annotations/AnnotationRegistry.java:70 | The attribute visiting order lists exactly the names of the map. |
| Registry.AddAnnotationDefaults | processor/src/main/java/io/michaelrocks/lightsaber/processor/annotations/AnnotationRegistry.java:32-40 | Adding defaults fails iff the other map already holds the type. On success the defaults go into the map matching their flag, that map's other entries and the other map are unchanged, and the two maps stay disjoint. |
| Registry.ResolveAnnotation | processor/src/main/java/io/michaelrocks/lightsaber/processor/annotations/AnnotationRegistry.java:42-48 | An already resolved annotation comes back unchanged with the registry untouched. Any result keeps the type, and its flag is the resolver's flag. |
| Registry.Resolve | processor/src/main/java/io/michaelrocks/lightsaber/processor/annotations/AnnotationRegistry.java:66-85 | Without defaults, or with none declared, the result has exactly the explicit attributes. An annotation whose type has no declared defaults comes out unresolved. |
| Registry.ResolveDefaults | processor/src/main/java/io/michaelrocks/lightsaber/processor/annotations/AnnotationRegistry.java:87-99 | Defaults are found iff some were declared. Already resolved defaults are returned with the registry unchanged. |
| Registry.Taken | processor/src/main/java/io/michaelrocks/lightsaber/processor/annotations/AnnotationRegistry.java:90 | Taking defaults removes exactly their type from the unresolved map, keeps every other unresolved entry's value and leaves the resolved map as it is. |
| Registry.Promote | processor/src/main/java/io/michaelrocks/lightsaber/processor/annotations/AnnotationRegistry.java:92-94 | Taken defaults that are already resolved are kept as they are. Others are resolved without applying defaults: the result keeps their type and exactly their attribute names, and its flag is the result's `resolved`. |
| Registry.PromoteMerged | processor/src/main/java/io/michaelrocks/lightsaber/processor/annotations/AnnotationRegistry.java:92-94 | Unresolved defaults are promoted to their own values, each resolved, with no defaults applied to them; the result is resolved iff every top-level nested annotation is. |
| Registry.Promoted | processor/src/main/java/io/michaelrocks/lightsaber/processor/annotations/AnnotationRegistry.java:95 | The promoted defaults are stored in the resolved map under their type. |
| Registry.ResolveEntries | processor/src/main/java/io/michaelrocks/lightsaber/processor/annotations/AnnotationRegistry.java:70-72 | The loop over the explicit values yields a map with exactly the visited names. |
| Registry.ResolveObject | processor/src/main/java/io/michaelrocks/lightsaber/processor/annotations/AnnotationRegistry.java:101-111 | Primitives and strings pass through. A nested annotation keeps its type. An array keeps its length. |
| Registry.ResolveArray | processor/src/main/java/io/michaelrocks/lightsaber/processor/annotations/AnnotationRegistry.java:113-119 | The resolved array has the input's length. |
| Registry.DefaultsPromoted | processor/src/main/java/io/michaelrocks/lightsaber/processor/annotations/AnnotationRegistry.java:87-99 | After a lookup of the declared defaults of a known type, the type is in the resolved map holding the returned defaults. When the type was unresolved, it is no longer in the unresolved map. |
| Registry.AnnotationEvolves | processor/src/main/java/io/michaelrocks/lightsaber/processor/annotations/AnnotationRegistry.java:42-48 | A resolution only moves defaults from the unresolved map to the resolved map. It never changes a resolved entry, keeps the set of known types and keeps the maps disjoint. |
| Registry.ResolveEvolves | processor/src/main/java/io/michaelrocks/lightsaber/processor/annotations/AnnotationRegistry.java:66-74 | The same evolution law for the resolver's `resolve`. |
| Registry.DefaultsEvolve | processor/src/main/java/io/michaelrocks/lightsaber/processor/annotations/AnnotationRegistry.java:87-99 | The same evolution law for a lookup of defaults. |
| Registry.PromoteEvolves | processor/src/main/java/io/michaelrocks/lightsaber/processor/annotations/AnnotationRegistry.java:92-94 | The same evolution law for resolving taken defaults. |
| Registry.EntriesEvolve | processor/src/main/java/io/michaelrocks/lightsaber/processor/annotations/AnnotationRegistry.java:70-72 | The same evolution law for the loop over explicit values. |
| Registry.ObjectEvolves | processor/src/main/java/io/michaelrocks/lightsaber/processor/annotations/AnnotationRegistry.java:101-111 | The same evolution law for `resolveObject`. |
| Registry.ArrayEvolves | processor/src/main/java/io/michaelrocks/lightsaber/processor/annotations/AnnotationRegistry.java:113-119 | The same evolution law for `resolveArray`. |
| Registry.EvolvesTransitive | processor/src/main/java/io/michaelrocks/lightsaber/processor/annotations/AnnotationRegistry.java:29-30 | Two evolutions in a row are one evolution. |
| Registry.PromotionEvolves | processor/src/main/java/io/michaelrocks/lightsaber/processor/annotations/AnnotationRegistry.java:90-95 | Removing a type from the unresolved map, evolving, then storing its promotion in the resolved map is an evolution. |
| Registry.ObjectResolves | processor/src/main/java/io/michaelrocks/lightsaber/processor/annotations/AnnotationRegistry.java:101-111 | `resolveObject` returns a resolution of its input. Its flag contribution is true iff every top-level nested annotation of the result is resolved. |
| Registry.ArrayResolves | processor/src/main/java/io/michaelrocks/lightsaber/processor/annotations/AnnotationRegistry.java:113-119 | Each element of the result resolves the input element at the same index. The flag is the conjunction over the elements. |
| Registry.EntriesResolve | processor/src/main/java/io/michaelrocks/lightsaber/processor/annotations/AnnotationRegistry.java:70-72 | Each explicit value is resolved under its name. The flag is the conjunction over the entries. |
| Registry.AnnotationResolves | processor/src/main/java/io/michaelrocks/lightsaber/processor/annotations/AnnotationRegistry.java:42-48 | `resolveAnnotation` returns a resolution of its input: same type, a superset of the explicit attributes, each resolved. A resolved input is unchanged. |
| Registry.ResolveMerged | processor/src/main/java/io/michaelrocks/lightsaber/processor/annotations/AnnotationRegistry.java:66-85 | The result is the defaults' values overlaid by the resolved explicit values. It is resolved iff the defaults were found and resolved (when applied) and every top-level nested annotation is resolved. |
| Registry.DefaultsUsed | processor/src/main/java/io/michaelrocks/lightsaber/processor/annotations/AnnotationRegistry.java:66-85 | The defaults a resolution used, as the registry it leaves records them, are the ones its defaults lookup returned, and none when defaults are not applied. |
| Registry.MergedWithFound | processor/src/main/java/io/michaelrocks/lightsaber/processor/annotations/AnnotationRegistry.java:66-85 | The result overlays the resolved explicit values on the values of the defaults the lookup returned. |
| Registry.MergedFrom | processor/src/main/java/io/michaelrocks/lightsaber/processor/annotations/AnnotationRegistry.java:66-85 | Given the defaults lookup's outcome and resolved explicit values, the result is their merge. |
| Registry.OverlayIsMerged | processor/src/main/java/io/michaelrocks/lightsaber/processor/annotations/AnnotationRegistry.java:73 | Overlaying resolved explicit values on the defaults' values satisfies the merge rule. |
| Registry.ExtendEntries | processor/src/main/java/io/michaelrocks/lightsaber/processor/annotations/AnnotationRegistry.java:71 | Adding one resolved entry keeps every entry a resolution of its explicit value, and the flag the conjunction over the entries. |
| Registry.ResolveAnnotationContract | processor/src/main/java/io/michaelrocks/lightsaber/processor/annotations/AnnotationRegistry.java:42-99 | Resolved annotations are returned as they are. Unresolved ones are merged with their type's defaults. The type's defaults end up resolved-and-stored iff any were declared, and leave the unresolved map. The registry evolves. |
| Registry.EntryResolvedUnder | processor/src/main/java/io/michaelrocks/lightsaber/processor/annotations/AnnotationRegistry.java:70-72 | Each explicit value in the result is `resolveObject` of that value against some registry the walk evolved into. |
| Registry.SelfReferenceStaysUnresolved | processor/src/main/java/io/michaelrocks/lightsaber/processor/annotations/AnnotationRegistry.java:87-99 | Defaults that nest an annotation of their own type do not loop. That nested annotation comes out unresolved with only its explicit values, and the promoted defaults stay unresolved. |
| Registry.WithoutDefaults | processor/src/main/java/io/michaelrocks/lightsaber/processor/annotations/AnnotationRegistry.java:76-81 | An unresolved nested annotation whose type has no declared defaults comes out unresolved, with its explicit attributes only. |
| ModuleMethodAnalysis.VisitAnnotation | processor/src/main/java/io/michaelrocks/lightsaber/processor/analysis/ModuleMethodAnalyzer.java:52-77 | `@Provides` marks a provider. The first qualifier is kept as exactly what `resolveAnnotation` returns against the current registry, and the registry becomes the one that call leaves behind. Later qualifiers report an error. The first scope is kept, and later scopes report an error. Other annotations change nothing. |
| ModuleMethodAnalysis.FirstQualifier | processor/src/main/java/io/michaelrocks/lightsaber/processor/analysis/ModuleMethodAnalyzer.java:57-64 | Returns the index of the first qualifier annotation, or none when there is no qualifier. |
| ModuleMethodAnalysis.FirstScope | processor/src/main/java/io/michaelrocks/lightsaber/processor/analysis/ModuleMethodAnalyzer.java:69-70 | Returns the index of the first scope annotation, or none when there is no scope. |
| ModuleMethodAnalysis.OccurrencesAppend | processor/src/main/java/io/michaelrocks/lightsaber/processor/analysis/ModuleMethodAnalyzer.java:66-73 | Counting errors distributes over appending reports. |
| ModuleMethodAnalysis.ProvidesSeen | processor/src/main/java/io/michaelrocks/lightsaber/processor/analysis/ModuleMethodAnalyzer.java:55-56 | After the visit, the method is a provider iff it was one before or some annotation is `@Provides`. |
| ModuleMethodAnalysis.FirstQualifierKept | processor/src/main/java/io/michaelrocks/lightsaber/processor/analysis/ModuleMethodAnalyzer.java:57-64 | The kept qualifier is the one already held. Otherwise it is exactly `resolveAnnotation` of the first qualifier annotation against the starting registry, since nothing visited before it changes the registry. |
| ModuleMethodAnalysis.FirstScopeKept | processor/src/main/java/io/michaelrocks/lightsaber/processor/analysis/ModuleMethodAnalyzer.java:69-70 | The kept scope is the one already held, or else that of the first scope annotation. |
| ModuleMethodAnalysis.ErrorsAppended | processor/src/main/java/io/michaelrocks/lightsaber/processor/analysis/ModuleMethodAnalyzer.java:65-74 | Errors are only ever appended: earlier reports survive the visit. |
| ModuleMethodAnalysis.QualifierErrorsCounted | processor/src/main/java/io/michaelrocks/lightsaber/processor/analysis/ModuleMethodAnalyzer.java:65-68 | Every qualifier annotation met while a qualifier is held reports one multiple-qualifiers error. |
| ModuleMethodAnalysis.ScopeErrorsCounted | processor/src/main/java/io/michaelrocks/lightsaber/processor/analysis/ModuleMethodAnalyzer.java:71-74 | Every scope annotation met while a scope is held reports one multiple-scopes error. |
| ModuleMethodAnalysis.QualifierCountNone | processor/src/main/java/io/michaelrocks/lightsaber/processor/analysis/ModuleMethodAnalyzer.java:57-58 | The qualifier count is positive iff there is a first qualifier annotation. |
| ModuleMethodAnalysis.ScopeCountNone | processor/src/main/java/io/michaelrocks/lightsaber/processor/analysis/ModuleMethodAnalyzer.java:69 | The scope count is positive iff there is a first scope annotation. |
| ModuleMethodAnalysis.AnalyzeMethodContract | processor/src/main/java/io/michaelrocks/lightsaber/processor/analysis/ModuleMethodAnalyzer.java:52-89 | A provider method is registered iff some annotation is `@Provides`. It carries the first scope and exactly `resolveAnnotation` of the first qualifier against the given registry. There are n-1 multiple-qualifier errors for n qualifiers, n-1 multiple-scope errors for n scopes, and no other error. |
| ModuleMethodAnalysis.ErrorsAreOfTwoKinds | processor/src/main/java/io/michaelrocks/lightsaber/processor/analysis/ModuleMethodAnalyzer.java:66-73 | Every reported error is either a multiple-qualifiers or a multiple-scopes error. |
| InjectionTargetAnalysis.VisitAnnotations | processor/src/main/java/com/michaelrocks/lightsaber/processor/analysis/InjectionTargetAnalyzer.java:61-72 | Annotation visits never change the target type or the default-constructor flag. |
| InjectionTargetAnalysis.InjectCount | processor/src/main/java/com/michaelrocks/lightsaber/processor/analysis/InjectionTargetAnalyzer.java:62 | The number of `@Inject` annotations is positive iff `@Inject` is among them. |
| InjectionTargetAnalysis.AnnotationsCollect | processor/src/main/java/com/michaelrocks/lightsaber/processor/analysis/InjectionTargetAnalyzer.java:59-92 | A member's annotations append one copy of its signature per `@Inject` to the list of its kind (field, constructor or other method), and nothing to the other lists. |
| InjectionTargetAnalysis.Collected | processor/src/main/java/com/michaelrocks/lightsaber/processor/analysis/InjectionTargetAnalyzer.java:41-93 | The default-constructor flag is set iff some member is a parameterless constructor. Each list has one entry per `@Inject` on a member of its kind. A signature is listed iff such a member with that signature carries `@Inject`. |
| InjectionTargetAnalysis.AnalyzeClassContract | processor/src/main/java/com/michaelrocks/lightsaber/processor/analysis/InjectionTargetAnalyzer.java:95-111 | The class is injectable iff a field or non-constructor method has `@Inject`. It is in error, listing the constructors, iff constructors carry `@Inject` more than once. It is providable iff exactly once. |
| InjectionTargetAnalysis.InjectableAndProvidable | processor/src/main/java/com/michaelrocks/lightsaber/processor/analysis/InjectionTargetAnalyzer.java:98-108 | Any class with an `@Inject` field or method and exactly one `@Inject` constructor annotation is registered both as injectable and as providable, and reports no error. |
| InjectionTargetAnalysis.UnannotatedDefaultConstructor | processor/src/main/java/com/michaelrocks/lightsaber/processor/analysis/InjectionTargetAnalyzer.java:54-56 | Any class with a parameterless constructor has the default-constructor flag set, annotated or not. If no member carries `@Inject`, no constructor is collected and the class is neither injectable nor providable nor in error. |
| ParameterizedTypes.Raw | processor/src/main/java/com/michaelrocks/lightsaber/processor/descriptors/ParameterizedType.java:27-29 | The one-argument constructor has the given raw type and no parameter. |
| ParameterizedTypes.FromType | processor/src/main/java/com/michaelrocks/lightsaber/processor/descriptors/ParameterizedType.java:36-38 | `fromType` has the given raw type and no parameter. |
| ParameterizedTypes.EqualsIsEquivalence | processor/src/main/java/com/michaelrocks/lightsaber/processor/descriptors/ParameterizedType.java:48-63 | `equals` is reflexive, symmetric and transitive, and never holds against null. |
| ParameterizedTypes.FromTypeEqualsRaw | processor/src/main/java/com/michaelrocks/lightsaber/processor/descriptors/ParameterizedType.java:27-38 | `fromType(t)` equals `new ParameterizedType(t)`. |
| ParameterizedTypes.Wrap | processor/src/main/java/com/michaelrocks/lightsaber/processor/descriptors/ParameterizedType.java:67-70 | Java `int` arithmetic: the result is in the signed 32-bit range and congruent to the input modulo 2^32. |
| ParameterizedTypes.Hash | processor/src/main/java/com/michaelrocks/lightsaber/processor/descriptors/ParameterizedType.java:65-71 | The hash code is a Java `int`. |
| ParameterizedTypes.EqualsImpliesSameHash | processor/src/main/java/com/michaelrocks/lightsaber/processor/descriptors/ParameterizedType.java:48-71 | The `equals`/`hashCode` law: values that `equals` relates have equal `HashCodeBuilder` hash codes, whatever the types hash to. |
| ParameterizedTypes.ToString | processor/src/main/java/com/michaelrocks/lightsaber/processor/descriptors/ParameterizedType.java:73-80 | Without a parameter, the string is the raw type. With one, it is the raw type, then `<`, the parameter and `>`. |
| ParameterizedTypes.IndexOf | processor/src/main/java/com/michaelrocks/lightsaber/processor/descriptors/ParameterizedType.java:78 | Returns the first occurrence of a character, or none when it does not occur. |
| ParameterizedTypes.ParseToString | processor/src/main/java/com/michaelrocks/lightsaber/processor/descriptors/ParameterizedType.java:73-80 | The string form can be read back: parsing `toString` of a value whose raw type has no `<` gives the value. |
| ParameterizedTypes.AngleBracketBreaksParse | processor/src/main/java/com/michaelrocks/lightsaber/processor/descriptors/ParameterizedType.java:73-80 | The restriction on `ParseToString` is needed: the value with raw type `La<b;` and parameter `Lc;` prints as `La<b;<Lc;>`, which reads back as raw type `La` with parameter `b;<Lc;`. |
| ParameterizedTypes.IndexOfFirst | processor/src/main/java/com/michaelrocks/lightsaber/processor/descriptors/ParameterizedType.java:78 | An occurrence of a character with none before it is the one found. |
| ParameterizedTypes.ToStringInjective | processor/src/main/java/com/michaelrocks/lightsaber/processor/descriptors/ParameterizedType.java:73-80 | Distinct values whose raw types have no `<` print differently. |
| AccessFlags.PatchClass | processor/src/main/kotlin/io/michaelrocks/lightsaber/processor/injection/InjectableTargetPatcher.kt:34 | The class becomes public and neither private nor protected. Every other bit is kept. |
| AccessFlags.PatchMember | processor/src/main/kotlin/io/michaelrocks/lightsaber/processor/injection/InjectableTargetPatcher.kt:44 | An injectable member is neither private nor final. Every other bit is kept. |
| AccessFlags.PatchClassUnique | processor/src/main/kotlin/io/michaelrocks/lightsaber/processor/injection/InjectableTargetPatcher.kt:34 | The contract of the class patch determines its result: only one value satisfies it. |
| AccessFlags.PatchMemberUnique | processor/src/main/kotlin/io/michaelrocks/lightsaber/processor/injection/InjectableTargetPatcher.kt:44 | The contract of the member patch determines its result: only one value satisfies it. |
| AccessFlags.PatchClassIdempotent | processor/src/main/kotlin/io/michaelrocks/lightsaber/processor/injection/InjectableTargetPatcher.kt:34-38 | The class patch is idempotent. It leaves flags unchanged, and so does not set the dirty flag, iff the class is already public and neither private nor protected. |
| AccessFlags.PatchMemberIdempotent | processor/src/main/kotlin/io/michaelrocks/lightsaber/processor/injection/InjectableTargetPatcher.kt:44-47 | The member patch is idempotent. It leaves flags unchanged, and so does not set the dirty flag, iff the member is already neither private nor final. |
| AccessFlags.PatchEvent | processor/src/main/kotlin/io/michaelrocks/lightsaber/processor/injection/InjectableTargetPatcher.kt:32-66 | Only the access is rewritten. The class header always gets the class patch. Injectable fields and methods get the member patch. All other members pass through unchanged. |
| AccessFlags.Patch | processor/src/main/kotlin/io/michaelrocks/lightsaber/processor/injection/InjectableTargetPatcher.kt:32-66 | Every class-header, field and method call is forwarded, in order, as `PatchEvent` rewrites it. |
| AccessFlags.DirtyIffChanged | processor/src/main/kotlin/io/michaelrocks/lightsaber/processor/injection/InjectableTargetPatcher.kt:36-38 | The dirty flag ends up set iff it was set before or some forwarded access differs from the one received. |
| AccessFlags.PatchAgainIsClean | processor/src/main/kotlin/io/michaelrocks/lightsaber/processor/injection/InjectableTargetPatcher.kt:32-66 | Patching already patched output changes nothing and leaves a fresh patcher clean. |
| ClassHierarchy.Hierarchy | processor/src/main/kotlin/io/michaelrocks/lightsaber/processor/commons/StandaloneClassWriter.kt:56-60 | Every class in a hierarchy has a mirror in the registry. |
| ClassHierarchy.HierarchyIsAncestors | processor/src/main/kotlin/io/michaelrocks/lightsaber/processor/commons/StandaloneClassWriter.kt:56-60 | The n-th class of the hierarchy is the class n superclass links up, and the chain ends where the links end. |
| ClassHierarchy.AncestorGone | processor/src/main/kotlin/io/michaelrocks/lightsaber/processor/commons/StandaloneClassWriter.kt:57-59 | Once the superclass chain has ended, it stays ended. |
| ClassHierarchy.InHierarchyIffAncestor | processor/src/main/kotlin/io/michaelrocks/lightsaber/processor/commons/StandaloneClassWriter.kt:56-60 | A class is in the hierarchy iff it is the class itself or one of its registered superclasses. |
| ClassHierarchy.FirstShared | processor/src/main/kotlin/io/michaelrocks/lightsaber/processor/commons/StandaloneClassWriter.kt:40-50 | Returns the first class of the second hierarchy that occurs in the first, or none when they share no class. |
| ClassHierarchy.CommonSuperClass | processor/src/main/kotlin/io/michaelrocks/lightsaber/processor/commons/StandaloneClassWriter.kt:39-54 | Returns the first class of the second hierarchy that is in the first, or `java/lang/Object` when they share none. |
| ClassHierarchy.CommonSuperClassIsCommon | processor/src/main/kotlin/io/michaelrocks/lightsaber/processor/commons/StandaloneClassWriter.kt:39-54 | The answer is a superclass-or-self of both classes, or else the two classes have no superclass-or-self in common. |
| ClassHierarchy.RanksFall | processor/src/main/kotlin/io/michaelrocks/lightsaber/processor/commons/StandaloneClassWriter.kt:56-60 | Ranks fall strictly along a hierarchy, so no class occurs in it twice. |
| ClassHierarchy.HierarchySuffix | processor/src/main/kotlin/io/michaelrocks/lightsaber/processor/commons/StandaloneClassWriter.kt:56-60 | The hierarchy of a class found in another hierarchy is the rest of that hierarchy. |
| ClassHierarchy.CommonSuperClassOfAncestor | processor/src/main/kotlin/io/michaelrocks/lightsaber/processor/commons/StandaloneClassWriter.kt:39-54 | When the first class is in the second's hierarchy, it is the answer. |
| ClassHierarchy.CommonSuperClassOfSelf | processor/src/main/kotlin/io/michaelrocks/lightsaber/processor/commons/StandaloneClassWriter.kt:39-54 | A registered class's common superclass with itself is itself. |
| ClassHierarchy.UnrelatedGetObject | processor/src/main/kotlin/io/michaelrocks/lightsaber/processor/commons/StandaloneClassWriter.kt:52-53 | Any two distinct registered classes whose superclass has no mirror share no class, so their common superclass is `java/lang/Object`. |
| Injectors.Chain | core/src/test/java/io/michaelrocks/lightsaber/LightsaberTest.java:63-75 | An injector's chain starts at the injector itself and lists only existing injectors. |
| Injectors.Lookup | core/src/test/java/io/michaelrocks/lightsaber/LightsaberTest.java:63-75 | A binding found comes from the injector or one of its ancestors, which binds the key to exactly it. |
| Injectors.AllProvidersIsLookup | core/src/test/java/io/michaelrocks/lightsaber/LightsaberTest.java:71-74 | `getAllProviders` lists a key iff lookup finds it, with the binding that lookup finds. |
| Injectors.LookupIsNearest | core/src/test/java/io/michaelrocks/lightsaber/LightsaberTest.java:67-70 | Lookup answers the binding of the first injector on the chain that binds the key. It fails iff no injector on the chain binds the key. |
| Injectors.RegisterAllContract | core/src/test/java/io/michaelrocks/lightsaber/LightsaberTest.java:100-110 | Registration succeeds iff the keys are pairwise distinct and new to the injector. It then binds exactly those keys to their providers and keeps the old bindings. |
| Injectors.RegisterAllKeys | core/src/test/java/io/michaelrocks/lightsaber/LightsaberTest.java:100-110 | A successful registration binds exactly the old keys and the registered ones. |
| Injectors.RegisterAllValues | core/src/test/java/io/michaelrocks/lightsaber/LightsaberTest.java:100-110 | A successful registration binds each registered key to its provider and keeps every old binding. |
| Injectors.RegisterAllSucceeds | core/src/test/java/io/michaelrocks/lightsaber/LightsaberTest.java:100-110 | Registration succeeds iff the keys are pairwise distinct and none is already bound. |
| Injectors.ConfigureRegisters | core/src/test/java/io/michaelrocks/lightsaber/LightsaberTest.java:100-134 | With fresh module classes, applying the modules registers everything they provide, in order, and records their classes. |
| Injectors.ConfigureIds | core/src/test/java/io/michaelrocks/lightsaber/LightsaberTest.java:93-98 | A successful configuration records the module classes it was given on top of those it had. |
| Injectors.ConfigureRejectsModules | core/src/test/java/io/michaelrocks/lightsaber/LightsaberTest.java:93-98 | A module class already on the chain, already applied, or repeated in the call makes configuration fail. |
| Injectors.ConfigureContract | core/src/test/java/io/michaelrocks/lightsaber/LightsaberTest.java:93-134 | Configuration succeeds iff the module classes are fresh and no key is bound twice. It then records the classes and binds every provided key. |
| Injectors.RegisterAppend | core/src/test/java/io/michaelrocks/lightsaber/LightsaberTest.java:100-134 | Registering two lists in turn is registering their concatenation. |
| Injectors.CreateInjectorContract | core/src/test/java/io/michaelrocks/lightsaber/LightsaberTest.java:52-98 | Creation succeeds iff the module classes are new to the parent's chain and not repeated, and no key (the `Injector` key included) is bound twice. The new injector sits under the parent and binds itself plus exactly the provided keys. Existing injectors are unchanged and the world stays valid. |
| Injectors.GetInstance | core/src/test/java/io/michaelrocks/lightsaber/LightsaberTest.java:56-57 | `getInstance` never changes parents, bindings or module classes. |
| Injectors.LookupDependsOnBindings | samples/injection-test/src/test/kotlin/io/michaelrocks/lightsaber/ChildInjectionTest.kt:33-61 | Singleton caching never changes what any injector's lookup, `getAllProviders` or module classes answer. |
| Injectors.GetInstanceContract | samples/injection-test/src/test/kotlin/io/michaelrocks/lightsaber/ChildInjectionTest.kt:33-73 | `getInstance` fails iff nothing on the chain binds the key. The `Injector` key answers the owning injector. A cached singleton is answered as is. Otherwise a new object is made, distinct from every cached one, and a singleton is cached at the injector owning its binding. No other injector changes and the world stays valid. |
| Injectors.SingletonShared | samples/injection-test/src/test/kotlin/io/michaelrocks/lightsaber/ChildInjectionTest.kt:33-61 | Once a singleton has been made, every injector whose lookup reaches the same owning binding answers that same object, and the world stays as it is. |
| Injectors.CreateWithModule | core/src/test/java/io/michaelrocks/lightsaber/LightsaberTest.java:52-91 | One module new to the chain, binding distinct keys other than `Injector`, creates an injector binding exactly those keys and itself. |
| Injectors.GrowthPreservesLookup | samples/injection-test/src/test/kotlin/io/michaelrocks/lightsaber/ChildInjectionTest.kt:43-51 | Creating more injectors changes no existing injector's lookup, `getAllProviders` or module classes. |
| InjectorScenarios.CreateInjectorScenario | core/src/test/java/io/michaelrocks/lightsaber/LightsaberTest.java:52-61 | A root injector over the parent module answers itself and "Parent String", and lists two providers. |
| InjectorScenarios.CreateChildInjectorScenario | core/src/test/java/io/michaelrocks/lightsaber/LightsaberTest.java:63-75 | Each injector answers itself. The child answers the parent's string and its own object, and lists three providers. |
| InjectorScenarios.CreateChildInjectorWithAnnotationScenario | core/src/test/java/io/michaelrocks/lightsaber/LightsaberTest.java:77-91 | `@Named("Annotated") String` is a separate key answered by the child, while plain `String` still reaches the parent. |
| InjectorScenarios.NamedProxyEqualsIsKeyEquality | core/src/test/java/io/michaelrocks/lightsaber/LightsaberTest.java:155-167 | `NamedProxy.equals` holds iff the other object is a `Named` whose `@Named` descriptor gives the same key. Equal qualifiers therefore reach the same binding from every injector. |
| InjectorScenarios.CreateChildInjectorWithSameModuleScenario | core/src/test/java/io/michaelrocks/lightsaber/LightsaberTest.java:93-98 | A child created with the parent's module class is rejected. |
| InjectorScenarios.SingletonBeforeChildScenario | samples/injection-test/src/test/kotlin/io/michaelrocks/lightsaber/ChildInjectionTest.kt:33-41 | A singleton made by the parent before the child exists is answered by both, as the same object. |
| InjectorScenarios.SingletonAfterChildScenario | samples/injection-test/src/test/kotlin/io/michaelrocks/lightsaber/ChildInjectionTest.kt:43-51 | A singleton made by the parent after the child exists is answered by both, as the same object. |
| InjectorScenarios.SingletonInChildScenario | samples/injection-test/src/test/kotlin/io/michaelrocks/lightsaber/ChildInjectionTest.kt:53-61 | A parent singleton first made through the child is cached at the parent, and both answer it. |
| InjectorScenarios.SingletonInTwoChildrenScenario | samples/injection-test/src/test/kotlin/io/michaelrocks/lightsaber/ChildInjectionTest.kt:63-73 | Two sibling children of the same module class each make their own singleton: equal values, distinct objects. |
| InjectorScenarios.TwoFreshSingletons | samples/injection-test/src/test/kotlin/io/michaelrocks/lightsaber/ChildInjectionTest.kt:63-73 | Two injectors that each own a singleton binding not yet used answer two different objects, one after the other. |
| InjectorScenarios.ChildWithParentModuleScenario | samples/injection-test/src/test/kotlin/io/michaelrocks/lightsaber/ChildInjectionTest.kt:75-81 | A child created with the parent's module class is rejected. |

## Left out

- ASM plumbing: class reading and writing, `super.visit*` delegation, `Type` parsing and descriptor computation (`Type.getMethodType`, `Type.getObjectType`). Types are modelled by their descriptor strings.
- `MethodSignatureParser` and `AnnotationInstanceParser` are not part of this model. A provider method carries its name and descriptor; a qualifier arrives already parsed, as `AnnotationData`.
- Qualifier and scope knowledge of `ProcessorContext` (`isQualifier`, `findScopeByAnnotationType`) is an input attached to each annotation. It is not computed.
- `reportError` message texts and logging (`logger.debug` / `logger.warn`) are left out. Errors are modelled by their kind, and a multiple-constructors error by the constructors it lists.
- `InjectionClassFileVisitor` and `LightsaberParameters` (plumbing and command-line options) are left out: neither decides anything the model states.
- `InjectionTargetDescriptor.Builder` is not part of this model. Its collections are modelled as sequences in insertion order, and `isConstructor` / `isDefaultConstructor` by the JVM names `<init>` and `()V`.
- `AnnotationDescriptor` itself is not part of this model. Its equality is taken as structural equality over (type, values), as its tests require. Its concrete `hashCode` and `toString` are left out: only "equal implies equal hash" is stated, for any hash function.
- ParameterizedTypes.Hash: the hash of an ASM `Type` is a parameter, so concrete hash values are not modelled. The `HashCodeBuilder(17, 37)` steps and 32-bit wrap-around are modelled.
- ParameterizedTypes.ParseToString: stated only for raw types without `<`. Class names that javac and kotlinc emit never contain `<`, but the JVM allows it in a class name (section 4.2.1 of the Java Virtual Machine Specification bars it only from method names, in section 4.2.2). For such a name the round trip fails: `AngleBracketBreaksParse` shows `La<b;` with parameter `Lc;` reading back as `La` with parameter `b;<Lc;`. ParameterizedTypes.ToStringInjective carries the same restriction.
- ClassHierarchy.Hierarchy: a cyclic superclass chain would make the source loop forever. The model excludes it by the ghost rank precondition. That precondition asks the whole registry to be acyclic, although only the chains of the two classes asked about need to be.
- ClassHierarchy.Super: a superclass without a mirror ends the chain. How grip's `getClassMirror` treats an unknown class is not part of this model.
- The runtime sources (`Lightsaber`, `LightsaberInjector`, `Key`, the provider classes) are not part of this model. `Injectors` is built from the behaviour that `LightsaberTest` and `ChildInjectionTest` assert. The self-binding of the `Injector` key is asserted there (LightsaberTest.java:56, 67-68 and 83-84). Three rules are assumptions of this model, since no test pins them down: a key registered twice within one injector is a configuration error; a module class repeated within one `createInjector` call is a configuration error; binding the `Injector` key from a module is a configuration error.
- Thread safety of singleton creation is left out (the model is sequential).
- Provider instances are modelled by the value they produce and whether they are singletons. Provider code and its dependencies are not modelled.
- `Lightsaber.Configurator` (members injectors, package modules) is left out. The tests use an empty configurator.
- `NamedProxy.hashCode` is not modelled. Its `equals` is modelled against `@Named` keys by `InjectorScenarios.NamedProxyEquals`.
- Names.Ordered: Java does not specify `HashMap` iteration order. The model visits attribute names in lexicographic order, and every resolution result is proved for that order only. When defaults nest annotations whose defaults are still unresolved, which ones a resolution promotes first can depend on the order, and so can the `resolved` flags of the results.

=== FILE: access_flags.dfy ===
/**
  The processor's `InjectableTargetPatcher`: rewrites the access flags of an injectable class so
  that generated injectors can reach it: the class becomes public, and its injectable fields and
  methods lose `private` and `final`. Everything else it forwards untouched, and it remembers
  whether it changed anything.

  Access flags are the `u2 access_flags` items of the Java Virtual Machine Specification
  (section 4.1, Table 4.1-B for classes; section 4.5, Table 4.5-A for fields; section 4.6,
  Table 4.6-A for methods), carried by ASM in an `int`.
 */
module AccessFlags {
  import opened Wrappers

  type Flags = bv32

  const AccPublic: Flags := 0x0001
  const AccPrivate: Flags := 0x0002
  const AccProtected: Flags := 0x0004
  const AccFinal: Flags := 0x0010

  /** Every flag `mask` names is set in `a`. */
  predicate Has(a: Flags, mask: Flags) {
    a & mask == mask
  }

  /** No flag `mask` names is set in `a`. */
  predicate HasNone(a: Flags, mask: Flags) {
    a & mask == 0
  }

  /** `a` and `b` agree on every bit outside `mask`. */
  predicate SameOutside(a: Flags, b: Flags, mask: Flags) {
    a & !mask == b & !mask
  }

  /** The class access that `visit` writes. */
  function PatchClass(a: Flags): (r: Flags)
    ensures Has(r, AccPublic) && HasNone(r, AccPrivate | AccProtected)
    ensures SameOutside(r, a, AccPublic | AccPrivate | AccProtected)
  {
    (a & !(AccPrivate | AccProtected)) | AccPublic
  }

  /** The access that `visitField` and `visitMethod` write for an injectable member. */
  function PatchMember(a: Flags): (r: Flags)
    ensures HasNone(r, AccPrivate | AccFinal)
    ensures SameOutside(r, a, AccPrivate | AccFinal)
  {
    a & !(AccPrivate | AccFinal)
  }

  /** The contract of `PatchClass` leaves exactly one candidate. */
  lemma PatchClassUnique(a: Flags, r: Flags)
    requires Has(r, AccPublic) && HasNone(r, AccPrivate | AccProtected)
    requires SameOutside(r, a, AccPublic | AccPrivate | AccProtected)
    ensures r == PatchClass(a)
  {
  }

  /** The contract of `PatchMember` leaves exactly one candidate. */
  lemma PatchMemberUnique(a: Flags, r: Flags)
    requires HasNone(r, AccPrivate | AccFinal)
    requires SameOutside(r, a, AccPrivate | AccFinal)
    ensures r == PatchMember(a)
  {
  }

  /** Patching a class twice is patching it once; it changes nothing exactly when the flags already had the patched form. */
  lemma PatchClassIdempotent(a: Flags)
    ensures PatchClass(PatchClass(a)) == PatchClass(a)
    ensures PatchClass(a) == a <==> Has(a, AccPublic) && HasNone(a, AccPrivate | AccProtected)
  {
    PatchClassUnique(PatchClass(a), PatchClass(a));
    if Has(a, AccPublic) && HasNone(a, AccPrivate | AccProtected) {
      PatchClassUnique(a, a);
    }
  }

  /** Patching a member twice is patching it once; it changes nothing exactly when the flags already had the patched form. */
  lemma PatchMemberIdempotent(a: Flags)
    ensures PatchMember(PatchMember(a)) == PatchMember(a)
    ensures PatchMember(a) == a <==> HasNone(a, AccPrivate | AccFinal)
  {
    PatchMemberUnique(PatchMember(a), PatchMember(a));
    if HasNone(a, AccPrivate | AccFinal) {
      PatchMemberUnique(a, a);
    }
  }

  /** A field or method by name and descriptor: what `InjectionTarget` is asked about. */
  datatype Signature = Signature(name: string, desc: string)

  /** A field's constant initial value, as `visitField` receives it: a boxed number (floating-point ones by their bits) or a string. */
  datatype Constant = IntConstant(i: int) | LongConstant(l: int) | FloatConstant(fbits: bv32) | DoubleConstant(dbits: bv64) | StringConstant(s: string)

  /** The visitor calls the patcher sees, with the arguments it forwards. */
  datatype Event =
    | ClassHeader(version: int, access: Flags, name: string, signature: Option<string>, superName: Option<string>, interfaces: seq<string>)
    | FieldDecl(access: Flags, name: string, desc: string, signature: Option<string>, value: Option<Constant>)
    | MethodDecl(access: Flags, name: string, desc: string, signature: Option<string>, exceptions: seq<string>)

  /** The injectable members of the class being patched. */
  datatype InjectionTarget = InjectionTarget(fields: set<Signature>, methods: set<Signature>)

  /** Whether the patcher rewrites the access of `e`. */
  predicate Rewritten(target: InjectionTarget, e: Event) {
    match e
    case ClassHeader(_, _, _, _, _, _) => true
    case FieldDecl(_, name, desc, _, _) => Signature(name, desc) in target.fields
    case MethodDecl(_, name, desc, _, _) => Signature(name, desc) in target.methods
  }

  /** One visitor call: the event forwarded downstream, with the access it is forwarded with. */
  function PatchEvent(target: InjectionTarget, e: Event): (r: Event)
    ensures r.access == (if !Rewritten(target, e) then e.access else if e.ClassHeader? then PatchClass(e.access) else PatchMember(e.access))
    ensures r == e.(access := r.access)
  {
    match e
    case ClassHeader(version, a, name, signature, superName, interfaces) =>
      ClassHeader(version, PatchClass(a), name, signature, superName, interfaces)
    case FieldDecl(a, name, desc, signature, value) =>
      if Signature(name, desc) in target.fields then FieldDecl(PatchMember(a), name, desc, signature, value) else e
    case MethodDecl(a, name, desc, signature, exceptions) =>
      if Signature(name, desc) in target.methods then MethodDecl(PatchMember(a), name, desc, signature, exceptions) else e
  }

  /** The patcher after a run: the events it forwarded and its `isDirty` flag. */
  datatype Patched = Patched(events: seq<Event>, dirty: bool)

  /** The patcher visiting `events` in order, `isDirty` starting as `dirty`. */
  function Patch(target: InjectionTarget, events: seq<Event>, dirty: bool): (r: Patched)
    ensures |r.events| == |events|
    ensures forall i | 0 <= i < |events| :: r.events[i] == PatchEvent(target, events[i])
    decreases |events|
  {
    if events == [] then Patched([], dirty)
    else
      var e := events[|events| - 1];
      var p := Patch(target, events[..|events| - 1], dirty);
      var out := PatchEvent(target, e);
      Patched(p.events + [out], p.dirty || out.access != e.access)
  }

  /**
    The dirty flag is never reset, and a fresh patcher ends dirty exactly when some forwarded
    access differs from the one it was given.
   */
  lemma {:induction false} DirtyIffChanged(target: InjectionTarget, events: seq<Event>, dirty: bool)
    ensures var r := Patch(target, events, dirty);
      r.dirty <==> dirty || exists i | 0 <= i < |events| :: r.events[i].access != events[i].access
    decreases |events|
  {
    if events != [] {
      var k := |events| - 1;
      DirtyIffChanged(target, events[..k], dirty);
      var r := Patch(target, events, dirty);
      var p := Patch(target, events[..k], dirty);
      assert forall i | 0 <= i < k :: p.events[i] == r.events[i] && events[..k][i] == events[i];
    }
  }

  /** Running the patcher over its own output forwards it unchanged and leaves a fresh patcher clean. */
  lemma PatchAgainIsClean(target: InjectionTarget, events: seq<Event>)
    ensures var once := Patch(target, events, false).events;
      Patch(target, once, false) == Patched(once, false)
  {
    var once := Patch(target, events, false).events;
    var twice := Patch(target, once, false);
    forall i | 0 <= i < |events|
      ensures twice.events[i] == once[i]
    {
      PatchClassIdempotent(events[i].access);
      PatchMemberIdempotent(events[i].access);
      assert Rewritten(target, once[i]) == Rewritten(target, events[i]);
    }
    DirtyIffChanged(target, once, false);
  }
}

=== FILE: annotations.dfy ===
/**
  Annotation values as the processor sees them.

  An annotation is a type plus a map from attribute name to value; a value is a primitive, a
  string, a nested annotation or an array of values. The processor has two annotation classes:
  `AnnotationDescriptor`, compared structurally over (type, values), and the registry's
  `AnnotationData`, which also carries a `resolved` flag. Both share the value grammar `Value`.
 */
module Annotations {

  /** A JVM type, by its descriptor (`Ljavax/inject/Named;`). */
  type TypeName = string

  /** An attribute value; `A` is the annotation class that nested values use. */
  datatype Value<A> =
    | Primitive(bits: int)
    | Str(text: string)
    | Nested(annotation: A)
    | Array(elements: seq<Value<A>>)

  /** The processor's `AnnotationDescriptor`: equality is datatype equality over (kind, values). */
  datatype Descriptor = Descriptor(kind: TypeName, values: map<string, Value<Descriptor>>)

  /** The registry's `AnnotationData`: a descriptor plus whether every default has been applied. */
  datatype AnnotationData = AnnotationData(kind: TypeName, values: map<string, Value<AnnotationData>>, resolved: bool)

  /** What `equals(Object)` may be handed: null, a string, or another descriptor. */
  datatype Object = Null | StringObject(text: string) | DescriptorObject(descriptor: Descriptor)

  /** `AnnotationDescriptor.equals`. */
  function Equals(d: Descriptor, other: Object): (r: bool)
  {
    match other
    case DescriptorObject(e) => e == d
    case _ => false
  }

  /** The attribute map that successive `HashMap.put` calls build on top of `m`. */
  function Puts<V>(m: map<string, V>, puts: seq<(string, V)>): (r: map<string, V>)
    ensures r.Keys == m.Keys + set i | 0 <= i < |puts| :: puts[i].0
    decreases |puts|
  {
    if puts == [] then m
    else
      var rest := Puts(m[puts[0].0 := puts[0].1], puts[1..]);
      assert (set i | 0 <= i < |puts| :: puts[i].0) == {puts[0].0} + set i | 0 <= i < |puts[1..]| :: puts[1..][i].0;
      rest
  }

  /** A name never put keeps its value. */
  lemma {:induction false} PutsUntouched<V>(m: map<string, V>, puts: seq<(string, V)>, k: string)
    requires k in m && forall i | 0 <= i < |puts| :: puts[i].0 != k
    ensures k in Puts(m, puts) && Puts(m, puts)[k] == m[k]
    decreases |puts|
  {
    if puts != [] {
      assert forall i | 0 <= i < |puts[1..]| :: puts[1..][i] == puts[i + 1];
      PutsUntouched(m[puts[0].0 := puts[0].1], puts[1..], k);
    }
  }

  /** The last put of a name decides its value. */
  lemma {:induction false} PutsLastWins<V>(m: map<string, V>, puts: seq<(string, V)>, i: nat)
    requires i < |puts| && LastPut(puts, i)
    ensures puts[i].0 in Puts(m, puts) && Puts(m, puts)[puts[i].0] == puts[i].1
    decreases i
  {
    var m' := m[puts[0].0 := puts[0].1];
    assert forall j | 0 <= j < |puts[1..]| :: puts[1..][j] == puts[j + 1];
    if i == 0 {
      PutsUntouched(m', puts[1..], puts[0].0);
    } else {
      PutsLastWins(m', puts[1..], i - 1);
    }
  }

  /** No later put in `puts` overwrites the name put at index `i`. */
  predicate LastPut<V>(puts: seq<(string, V)>, i: nat)
    requires i < |puts|
  {
    forall j | i < j < |puts| :: puts[j].0 != puts[i].0
  }

  predicate DistinctNames<V>(puts: seq<(string, V)>) {
    forall i, j | 0 <= i < j < |puts| :: puts[i].0 != puts[j].0
  }

  /** A descriptor built the way the processor's tests build one: a type and a list of puts. */
  function Build(kind: TypeName, puts: seq<(string, Value<Descriptor>)>): Descriptor {
    Descriptor(kind, Puts(map[], puts))
  }

  /**
    Equality does not depend on the order in which attributes were inserted: two insertion
    lists with distinct names and the same (name, value) pairs build equal descriptors, with
    one attribute per name.
   */
  lemma InsertionOrderIrrelevant(kind: TypeName, p: seq<(string, Value<Descriptor>)>, q: seq<(string, Value<Descriptor>)>)
    requires DistinctNames(p) && DistinctNames(q)
    requires forall x :: x in p <==> x in q
    ensures Build(kind, p) == Build(kind, q)
    ensures |Build(kind, p).values| == |p|
  {
    var a := Puts(map[], p);
    var b := Puts(map[], q);
    forall k | k in a
      ensures k in b && a[k] == b[k]
    {
      var i :| 0 <= i < |p| && p[i].0 == k;
      assert p[i] in q;
      var j :| 0 <= j < |q| && q[j] == p[i];
      assert LastPut(p, i) && LastPut(q, j);
      PutsLastWins(map[], p, i);
      PutsLastWins(map[], q, j);
    }
    forall k | k in b
      ensures k in a
    {
      var j :| 0 <= j < |q| && q[j].0 == k;
      assert q[j] in p;
    }
    assert a == b;
    NamesCardinality(p);
  }

  lemma {:induction false} NamesCardinality<V>(p: seq<(string, V)>)
    requires DistinctNames(p)
    ensures |Puts(map[], p).Keys| == |p|
  {
    var names := set i | 0 <= i < |p| :: p[i].0;
    assert Puts(map[], p).Keys == names;
    DistinctNamesCardinality(p);
  }

  lemma {:induction false} DistinctNamesCardinality<V>(p: seq<(string, V)>)
    requires DistinctNames(p)
    ensures |set i | 0 <= i < |p| :: p[i].0| == |p|
    decreases |p|
  {
    if p != [] {
      var tail := p[1..];
      DistinctNamesCardinality(tail);
      var s := set i | 0 <= i < |tail| :: tail[i].0;
      assert (set i | 0 <= i < |p| :: p[i].0) == {p[0].0} + s;
      assert p[0].0 !in s;
    }
  }

  /** Structural equality reaches into arrays: descriptors whose arrays differ at one element differ. */
  lemma DifferingArrayElement(kind: TypeName, name: string, xs: seq<Value<Descriptor>>, ys: seq<Value<Descriptor>>, i: nat)
    requires i < |xs| == |ys| && xs[i] != ys[i]
    ensures !Equals(Build(kind, [(name, Array(xs))]), DescriptorObject(Build(kind, [(name, Array(ys))])))
  {
    PutsLastWins(map[], [(name, Array(xs))], 0);
    PutsLastWins(map[], [(name, Array(ys))], 0);
  }

  /** Descriptors with different types are never equal, whatever their values. */
  lemma DifferentKindsDiffer(d: Descriptor, e: Descriptor)
    requires d.kind != e.kind
    ensures !Equals(d, DescriptorObject(e)) && !Equals(e, DescriptorObject(d))
  {
  }

  /** A descriptor is never equal to null or to a string. */
  lemma NeverEqualsNullOrString(d: Descriptor, s: string)
    ensures !Equals(d, Null) && !Equals(d, StringObject(s))
  {
  }

  /** Equality is the "equal implies same hash" law's premise: any hash over descriptors agrees on equal ones. */
  lemma EqualsImpliesSameHash(hash: Descriptor -> int, d: Descriptor, e: Descriptor)
    requires Equals(d, DescriptorObject(e))
    ensures hash(d) == hash(e)
  {
  }
}

=== FILE: class_hierarchy.dfy ===
/**
  The processor's `StandaloneClassWriter.getCommonSuperClass`: the nearest common superclass of
  two classes, found from the class registry alone instead of by loading classes.

  The registry is a partial map from a class to its mirror, of which only the superclass
  matters here. A class hierarchy is the chain that starts at the class's own mirror and follows
  superclasses until one has no mirror. The chains must be finite: `rank` is a ghost witness
  that every registered superclass link goes down.
 */
module ClassHierarchy {
  import opened Wrappers
  import Annotations

  type TypeName = Annotations.TypeName

  /** The internal name of `java.lang.Object`. */
  const ObjectType: TypeName := "java/lang/Object"

  datatype Mirror = Mirror(superType: Option<TypeName>)

  type ClassRegistry = map<TypeName, Mirror>

  /** The registered superclass of `t`, if `t` has a mirror whose superclass also has one. */
  function Super(reg: ClassRegistry, t: TypeName): Option<TypeName> {
    if t in reg && reg[t].superType.Some? && reg[t].superType.value in reg then reg[t].superType else None
  }

  /** Every registered class has a rank, and following a superclass link lowers it. */
  ghost predicate Ranked(reg: ClassRegistry, rank: map<TypeName, nat>) {
    forall t | t in reg :: t in rank && (Super(reg, t).Some? ==> Super(reg, t).value in rank && rank[Super(reg, t).value] < rank[t])
  }

  /** `findClassHierarchy`: `t`'s mirror, then its superclass's, and so on while mirrors are found. */
  function Hierarchy(reg: ClassRegistry, ghost rank: map<TypeName, nat>, t: TypeName): (h: seq<TypeName>)
    requires Ranked(reg, rank)
    ensures forall x | x in h :: x in reg
    decreases if t in reg then rank[t] + 1 else 0
  {
    if t !in reg then []
    else match Super(reg, t)
      case None => [t]
      case Some(s) => [t] + Hierarchy(reg, rank, s)
  }

  /** The class reached from `t` after `n` superclass links, as an independent account of the chain. */
  function Ancestor(reg: ClassRegistry, t: TypeName, n: nat): Option<TypeName>
    decreases n
  {
    if t !in reg then None
    else if n == 0 then Some(t)
    else match Super(reg, t)
      case None => None
      case Some(s) => Ancestor(reg, s, n - 1)
  }

  /** `a` is `t` or one of its registered superclasses. */
  ghost predicate AncestorOrSelf(reg: ClassRegistry, t: TypeName, a: TypeName) {
    exists n: nat :: Ancestor(reg, t, n) == Some(a)
  }

  /** The hierarchy lists exactly the classes reachable by superclass links, nearest first. */
  lemma {:induction false} HierarchyIsAncestors(reg: ClassRegistry, rank: map<TypeName, nat>, t: TypeName)
    requires Ranked(reg, rank)
    ensures forall n: nat | n < |Hierarchy(reg, rank, t)| :: Ancestor(reg, t, n) == Some(Hierarchy(reg, rank, t)[n])
    ensures Ancestor(reg, t, |Hierarchy(reg, rank, t)|).None?
    decreases if t in reg then rank[t] + 1 else 0
  {
    if t in reg && Super(reg, t).Some? {
      HierarchyIsAncestors(reg, rank, Super(reg, t).value);
    }
  }

  /** Ancestors past the end of the hierarchy do not exist either. */
  lemma {:induction false} AncestorGone(reg: ClassRegistry, t: TypeName, n: nat, m: nat)
    requires Ancestor(reg, t, n).None? && n <= m
    ensures Ancestor(reg, t, m).None?
    decreases n
  {
    if t in reg && n > 0 && Super(reg, t).Some? {
      AncestorGone(reg, Super(reg, t).value, n - 1, m - 1);
    }
  }

  lemma InHierarchyIffAncestor(reg: ClassRegistry, rank: map<TypeName, nat>, t: TypeName, a: TypeName)
    requires Ranked(reg, rank)
    ensures a in Hierarchy(reg, rank, t) <==> AncestorOrSelf(reg, t, a)
  {
    var h := Hierarchy(reg, rank, t);
    HierarchyIsAncestors(reg, rank, t);
    if a in h {
      var n :| 0 <= n < |h| && h[n] == a;
      assert Ancestor(reg, t, n) == Some(a);
    }
    if AncestorOrSelf(reg, t, a) {
      var n: nat :| Ancestor(reg, t, n) == Some(a);
      if n >= |h| {
        AncestorGone(reg, t, |h|, n);
      }
      assert h[n] == a;
    }
  }

  /** The first class of `h2` that also occurs in `h1`. */
  method FirstShared(h1: seq<TypeName>, h2: seq<TypeName>) returns (r: Option<TypeName>)
    ensures r.Some? ==> exists i | 0 <= i < |h2| :: h2[i] == r.value && r.value in h1 && forall j | 0 <= j < i :: h2[j] !in h1
    ensures r.None? ==> forall x | x in h2 :: x !in h1
  {
    var seen: set<TypeName> := {};
    for k := 0 to |h1|
      invariant seen == set j | 0 <= j < k :: h1[j]
    {
      seen := seen + {h1[k]};
    }
    assert forall x :: x in seen <==> x in h1;
    var i := 0;
    while i < |h2|
      invariant 0 <= i <= |h2|
      invariant forall j | 0 <= j < i :: h2[j] !in h1
    {
      if h2[i] in seen {
        return Some(h2[i]);
      }
      i := i + 1;
    }
    return None;
  }

  /**
    What `getCommonSuperClass` may answer: the first class of `t2`'s hierarchy that is also in
    `t1`'s, or `java/lang/Object` when the hierarchies share none.
   */
  predicate CommonSuperClassResult(reg: ClassRegistry, ghost rank: map<TypeName, nat>, t1: TypeName, t2: TypeName, r: TypeName)
    requires Ranked(reg, rank)
  {
    var h1 := Hierarchy(reg, rank, t1);
    var h2 := Hierarchy(reg, rank, t2);
    || (exists i | 0 <= i < |h2| :: h2[i] == r && r in h1 && forall j | 0 <= j < i :: h2[j] !in h1)
    || (r == ObjectType && forall x | x in h2 :: x !in h1)
  }

  /** `getCommonSuperClass`. */
  method CommonSuperClass(reg: ClassRegistry, ghost rank: map<TypeName, nat>, t1: TypeName, t2: TypeName) returns (r: TypeName)
    requires Ranked(reg, rank)
    ensures CommonSuperClassResult(reg, rank, t1, t2, r)
  {
    var found := FirstShared(Hierarchy(reg, rank, t1), Hierarchy(reg, rank, t2));
    r := match found case Some(t) => t case None => ObjectType;
  }

  /** A result found in the chains is a superclass-or-self of both arguments; otherwise the chains are disjoint. */
  lemma CommonSuperClassIsCommon(reg: ClassRegistry, rank: map<TypeName, nat>, t1: TypeName, t2: TypeName, r: TypeName)
    requires Ranked(reg, rank)
    requires CommonSuperClassResult(reg, rank, t1, t2, r)
    ensures (AncestorOrSelf(reg, t1, r) && AncestorOrSelf(reg, t2, r)) || forall a :: !(AncestorOrSelf(reg, t1, a) && AncestorOrSelf(reg, t2, a))
  {
    InHierarchyIffAncestor(reg, rank, t1, r);
    InHierarchyIffAncestor(reg, rank, t2, r);
    forall a | AncestorOrSelf(reg, t1, a) && AncestorOrSelf(reg, t2, a) && !(AncestorOrSelf(reg, t1, r) && AncestorOrSelf(reg, t2, r))
      ensures false
    {
      InHierarchyIffAncestor(reg, rank, t1, a);
      InHierarchyIffAncestor(reg, rank, t2, a);
    }
  }

  ghost predicate Descending(rank: map<TypeName, nat>, h: seq<TypeName>) {
    forall i, j | 0 <= i < j < |h| :: h[i] in rank && h[j] in rank && rank[h[j]] < rank[h[i]]
  }

  /** Ranks fall strictly along a hierarchy. */
  lemma {:induction false} RanksFall(reg: ClassRegistry, rank: map<TypeName, nat>, t: TypeName)
    requires Ranked(reg, rank)
    ensures Descending(rank, Hierarchy(reg, rank, t))
    decreases if t in reg then rank[t] + 1 else 0
  {
    if t in reg && Super(reg, t).Some? {
      var s := Super(reg, t).value;
      RanksFall(reg, rank, s);
      var h := Hierarchy(reg, rank, t);
      var hs := Hierarchy(reg, rank, s);
      assert h == [t] + hs;
      forall i, j | 0 <= i < j < |h|
        ensures rank[h[j]] < rank[h[i]]
      {
        assert h[j] == hs[j - 1];
        if i == 0 {
          assert hs[0] == s && rank[s] < rank[t];
          if j > 1 {
            assert hs[0] == hs[0] && hs[j - 1] == hs[j - 1];
            assert rank[hs[j - 1]] < rank[hs[0]];
          }
        } else {
          assert h[i] == hs[i - 1];
        }
      }
    }
  }

  /** The hierarchy of a class in another's hierarchy is the rest of that hierarchy. */
  lemma {:induction false} HierarchySuffix(reg: ClassRegistry, rank: map<TypeName, nat>, t: TypeName, k: nat)
    requires Ranked(reg, rank)
    requires k < |Hierarchy(reg, rank, t)|
    ensures Hierarchy(reg, rank, Hierarchy(reg, rank, t)[k]) == Hierarchy(reg, rank, t)[k..]
    decreases k
  {
    if k > 0 {
      var s := Super(reg, t).value;
      HierarchySuffix(reg, rank, s, k - 1);
      assert Hierarchy(reg, rank, t)[k..] == Hierarchy(reg, rank, s)[k - 1..];
    }
  }

  /**
    When `t1` is in `t2`'s hierarchy (in particular when `t1 == t2` is registered), the common
    superclass is `t1` itself.
   */
  lemma CommonSuperClassOfAncestor(reg: ClassRegistry, rank: map<TypeName, nat>, t1: TypeName, t2: TypeName, r: TypeName)
    requires Ranked(reg, rank)
    requires t1 in Hierarchy(reg, rank, t2)
    requires CommonSuperClassResult(reg, rank, t1, t2, r)
    ensures r == t1
  {
    var h1 := Hierarchy(reg, rank, t1);
    var h2 := Hierarchy(reg, rank, t2);
    var k :| 0 <= k < |h2| && h2[k] == t1;
    HierarchySuffix(reg, rank, t2, k);
    RanksFall(reg, rank, t2);
    RanksFall(reg, rank, t1);
    assert h1[0] == t1;
    var i :| 0 <= i < |h2| && h2[i] == r && r in h1 && forall j | 0 <= j < i :: h2[j] !in h1;
    if i > k {
      assert h2[k] in h1;
    }
  }

  /** The common superclass of a registered class with itself is that class. */
  lemma CommonSuperClassOfSelf(reg: ClassRegistry, rank: map<TypeName, nat>, t: TypeName, r: TypeName)
    requires Ranked(reg, rank) && t in reg
    requires CommonSuperClassResult(reg, rank, t, t, r)
    ensures r == t
  {
    assert Hierarchy(reg, rank, t)[0] == t;
    CommonSuperClassOfAncestor(reg, rank, t, t, r);
  }

  /** Two distinct registered classes without a registered superclass share nothing, so they get `java/lang/Object`. */
  lemma UnrelatedGetObject(reg: ClassRegistry, rank: map<TypeName, nat>, t1: TypeName, t2: TypeName, r: TypeName)
    requires Ranked(reg, rank)
    requires t1 != t2 && t1 in reg && t2 in reg && Super(reg, t1).None? && Super(reg, t2).None?
    requires CommonSuperClassResult(reg, rank, t1, t2, r)
    ensures r == ObjectType
  {
    assert Hierarchy(reg, rank, t1) == [t1];
    assert Hierarchy(reg, rank, t2) == [t2];
  }
}

=== FILE: injection_target_analysis.dfy ===
/**
  The processor's `InjectionTargetAnalyzer`: collects the `@Inject` fields, methods and
  constructors of one class, then decides whether the class is an injectable target (it has
  members to inject into), a providable target (it has one constructor to build it with), both,
  or in error (more than one injectable constructor).

  The ASM visitor sees each member of the class, then each annotation of that member; the model
  folds over the members in order and, within a member, over its annotation types in order.
 */
module InjectionTargetAnalysis {
  import opened Wrappers
  import opened Annotations

  /** The type of `@Inject`. */
  const InjectType: TypeName := "Ljavax/inject/Inject;"

  /** The JVM's name for an instance initialisation method (a constructor). */
  const ConstructorName: string := "<init>"

  /** The descriptor of a constructor with no parameters. */
  const DefaultConstructorDesc: string := "()V"

  /** A member of the class as the visitor sees it: its name, descriptor and annotation types. */
  datatype Member =
    | Method(name: string, desc: string, annotations: seq<TypeName>)
    | Field(name: string, desc: string, annotations: seq<TypeName>)

  /** A field or method by name and descriptor. */
  datatype Signature = Signature(name: string, desc: string)

  /** `InjectionTargetDescriptor.Builder`: what has been collected so far. */
  datatype Target = Target(
    kind: TypeName,
    hasDefaultConstructor: bool,
    fields: seq<Signature>,
    methods: seq<Signature>,
    constructors: seq<Signature>)

  predicate IsConstructor(m: Member) {
    m.Method? && m.name == ConstructorName
  }

  predicate IsDefaultConstructor(m: Member) {
    IsConstructor(m) && m.desc == DefaultConstructorDesc
  }

  /** The three lists of the builder. */
  datatype Slot = FieldSlot | MethodSlot | ConstructorSlot

  /** The list an `@Inject` on `m` adds `m` to. */
  function SlotOf(m: Member): Slot {
    if m.Field? then FieldSlot else if IsConstructor(m) then ConstructorSlot else MethodSlot
  }

  function SignatureOf(m: Member): Signature {
    Signature(m.name, m.desc)
  }

  function List(t: Target, slot: Slot): seq<Signature> {
    match slot
    case FieldSlot => t.fields
    case MethodSlot => t.methods
    case ConstructorSlot => t.constructors
  }

  /** The annotation visitor of one member: every `@Inject` adds the member to the list it belongs in. */
  function VisitAnnotations(t: Target, m: Member, anns: seq<TypeName>): (r: Target)
    ensures r.kind == t.kind && r.hasDefaultConstructor == t.hasDefaultConstructor
    decreases |anns|
  {
    if anns == [] then t
    else
      var u := VisitAnnotations(t, m, anns[..|anns| - 1]);
      var s := SignatureOf(m);
      if anns[|anns| - 1] != InjectType then u
      else if m.Field? then u.(fields := u.fields + [s])
      else if IsConstructor(m) then u.(constructors := u.constructors + [s])
      else u.(methods := u.methods + [s])
  }

  /** `visitMethod` / `visitField` with their annotation visitors. */
  function VisitMember(t: Target, m: Member): Target {
    var u := if IsDefaultConstructor(m) then t.(hasDefaultConstructor := true) else t;
    VisitAnnotations(u, m, m.annotations)
  }

  /** The builder after visiting `members` in order, starting from `visit`'s empty builder. */
  function VisitMembers(kind: TypeName, members: seq<Member>): Target
    decreases |members|
  {
    if members == [] then Target(kind, false, [], [], [])
    else VisitMember(VisitMembers(kind, members[..|members| - 1]), members[|members| - 1])
  }

  /** How many of `anns` are `@Inject`. */
  function InjectCount(anns: seq<TypeName>): (n: nat)
    ensures n <= |anns|
    ensures n > 0 <==> InjectType in anns
    decreases |anns|
  {
    if anns == [] then 0
    else
      var init := anns[..|anns| - 1];
      assert forall a :: a in anns <==> a in init || a == anns[|anns| - 1];
      InjectCount(init) + if anns[|anns| - 1] == InjectType then 1 else 0
  }

  /** How many `@Inject` annotations sit on members of `members` that belong in `slot`. */
  function Injections(members: seq<Member>, slot: Slot): nat
    decreases |members|
  {
    if members == [] then 0
    else
      var m := members[|members| - 1];
      Injections(members[..|members| - 1], slot) + if SlotOf(m) == slot then InjectCount(m.annotations) else 0
  }

  /** `n` copies of `s`. */
  function Repeat(s: Signature, n: nat): (r: seq<Signature>)
    ensures |r| == n && forall i | 0 <= i < n :: r[i] == s
  {
    if n == 0 then [] else Repeat(s, n - 1) + [s]
  }

  /** One member's annotations append one copy of its signature per `@Inject` to its own list, and nothing elsewhere. */
  lemma {:induction false} AnnotationsCollect(t: Target, m: Member, anns: seq<TypeName>, slot: Slot)
    ensures List(VisitAnnotations(t, m, anns), slot) ==
      List(t, slot) + (if SlotOf(m) == slot then Repeat(SignatureOf(m), InjectCount(anns)) else [])
    decreases |anns|
  {
    if anns != [] {
      AnnotationsCollect(t, m, anns[..|anns| - 1], slot);
    }
  }

  /**
    The collected lists hold one entry per `@Inject` annotation on a member of their class, and
    a signature is in a list iff some member of that class with that signature carries
    `@Inject`; `hasDefaultConstructor` records whether a parameterless constructor was visited,
    annotated or not.
   */
  lemma {:induction false} Collected(kind: TypeName, members: seq<Member>, slot: Slot)
    ensures var t := VisitMembers(kind, members);
      && t.kind == kind
      && (t.hasDefaultConstructor <==> exists i | 0 <= i < |members| :: IsDefaultConstructor(members[i]))
      && |List(t, slot)| == Injections(members, slot)
      && forall s :: s in List(t, slot) <==>
           exists i | 0 <= i < |members| :: SlotOf(members[i]) == slot && InjectType in members[i].annotations && s == SignatureOf(members[i])
    decreases |members|
  {
    if members != [] {
      var k := |members| - 1;
      var init := members[..k];
      Collected(kind, init, slot);
      var m := members[k];
      var t := VisitMembers(kind, init);
      var u := if IsDefaultConstructor(m) then t.(hasDefaultConstructor := true) else t;
      AnnotationsCollect(u, m, m.annotations, slot);
      assert forall i | 0 <= i < k :: init[i] == members[i];
      assert List(u, slot) == List(t, slot);
    }
  }

  /** Why a class is rejected. */
  datatype TargetError = MultipleInjectableConstructors(constructors: seq<Signature>)

  /** `visitEnd`: what the class is registered as, and the error it reports. */
  datatype Verdict = Verdict(injectable: bool, providable: bool, error: Option<TargetError>)

  function Classify(t: Target): Verdict {
    Verdict(
      t.fields != [] || t.methods != [],
      |t.constructors| == 1,
      if |t.constructors| > 1 then Some(MultipleInjectableConstructors(t.constructors)) else None)
  }

  function AnalyzeClass(kind: TypeName, members: seq<Member>): Verdict {
    Classify(VisitMembers(kind, members))
  }

  /**
    A class is injectable iff some field or non-constructor method carries `@Inject`; it is in
    error iff `@Inject` appears on constructors more than once, and providable iff exactly once.
    The two registrations are decided independently.
   */
  lemma AnalyzeClassContract(kind: TypeName, members: seq<Member>)
    ensures var v := AnalyzeClass(kind, members);
      && (v.injectable <==> exists i | 0 <= i < |members| :: !IsConstructor(members[i]) && InjectType in members[i].annotations)
      && (v.error.Some? <==> Injections(members, ConstructorSlot) > 1)
      && (v.providable <==> Injections(members, ConstructorSlot) == 1)
      && (v.error.Some? ==> v.error.value.constructors == VisitMembers(kind, members).constructors)
  {
    Collected(kind, members, FieldSlot);
    Collected(kind, members, MethodSlot);
    Collected(kind, members, ConstructorSlot);
    var t := VisitMembers(kind, members);
    if exists i | 0 <= i < |members| :: !IsConstructor(members[i]) && InjectType in members[i].annotations {
      var i :| 0 <= i < |members| && !IsConstructor(members[i]) && InjectType in members[i].annotations;
      assert SignatureOf(members[i]) in List(t, SlotOf(members[i]));
    }
    if t.fields != [] || t.methods != [] {
      var slot := if t.fields != [] then FieldSlot else MethodSlot;
      assert List(t, slot)[0] in List(t, slot);
      var i :| 0 <= i < |members| && SlotOf(members[i]) == slot && InjectType in members[i].annotations && List(t, slot)[0] == SignatureOf(members[i]);
      assert !IsConstructor(members[i]);
    }
  }

  /**
    A class with an `@Inject` field (or method) and exactly one `@Inject` constructor annotation
    is registered both as an injectable and as a providable target, and no error is reported.
   */
  lemma InjectableAndProvidable(kind: TypeName, members: seq<Member>, i: nat)
    requires i < |members| && !IsConstructor(members[i]) && InjectType in members[i].annotations
    requires Injections(members, ConstructorSlot) == 1
    ensures var v := AnalyzeClass(kind, members);
      v.injectable && v.providable && v.error.None?
  {
    AnalyzeClassContract(kind, members);
  }

  /**
    A parameterless constructor is recorded whether or not it carries `@Inject`; a class none of
    whose members carries `@Inject` is neither injectable nor providable, and is not in error.
   */
  lemma UnannotatedDefaultConstructor(kind: TypeName, members: seq<Member>, i: nat)
    requires i < |members| && IsDefaultConstructor(members[i])
    ensures VisitMembers(kind, members).hasDefaultConstructor
    ensures (forall j | 0 <= j < |members| :: InjectType !in members[j].annotations) ==>
      var t := VisitMembers(kind, members);
      t.constructors == [] && Classify(t) == Verdict(false, false, None)
  {
    Collected(kind, members, ConstructorSlot);
    Collected(kind, members, FieldSlot);
    Collected(kind, members, MethodSlot);
    if forall j | 0 <= j < |members| :: InjectType !in members[j].annotations {
      NoInjections(members, ConstructorSlot);
      NoInjections(members, FieldSlot);
      NoInjections(members, MethodSlot);
    }
  }

  /** Without `@Inject` annotations nothing is collected in any list. */
  lemma {:induction false} NoInjections(members: seq<Member>, slot: Slot)
    requires forall j | 0 <= j < |members| :: InjectType !in members[j].annotations
    ensures Injections(members, slot) == 0
    decreases |members|
  {
    if members != [] {
      NoInjections(members[..|members| - 1], slot);
    }
  }
}

=== FILE: injector.dfy ===
/**
  The runtime injector hierarchy, as its tests pin it down.

  Injectors form a tree by parent links. Each injector holds the bindings its modules
  registered (a key to a provider), the classes of those modules, and the singleton instances
  it has created so far. A key is a type plus an optional qualifier, compared structurally.
  Lookup walks from an injector to the root and takes the nearest binding. Every injector binds
  the `Injector` key to itself.

  The world of injectors is an explicit value: injector handles are indices into it, and every
  provider invocation draws a fresh instance identity from its counter.
 */
module Injectors {
  import opened Wrappers
  import opened Annotations

  /** A handle on an injector: its index in the world. */
  type NodeId = nat

  /** A module is identified by its class, not by the instance passed in. */
  type ModuleId = string

  datatype Key = Key(kind: TypeName, qualifier: Option<Descriptor>)

  const InjectorType: TypeName := "Lio/michaelrocks/lightsaber/Injector;"

  /** `Key.of(Injector.class)`. */
  const InjectorKey: Key := Key(InjectorType, None)

  /** What a provider produces (its value, as the tests compare it with `assertEquals`) and whether it is a singleton. */
  datatype Provider = Provider(product: string, singleton: bool)

  /** A module: its class and the bindings `configureInjector` registers, in order. */
  datatype Module = Module(id: ModuleId, registers: seq<(Key, Provider)>)

  datatype Binding = SelfBinding | Bound(provider: Provider)

  /** An object handed out by `getInstance`; `Made` objects with different ids are different objects. */
  datatype Instance = InjectorInstance(node: NodeId) | Made(id: nat, product: string)

  datatype Node = Node(
    parent: Option<NodeId>,
    bindings: map<Key, Binding>,
    modules: set<ModuleId>,
    singletons: map<Key, Instance>)

  /** All injectors, and the identity the next created object gets. */
  datatype World = World(nodes: seq<Node>, nextId: nat)

  datatype ConfigurationError = DuplicateModule(moduleId: ModuleId) | DuplicateBinding(key: Key)

  datatype LookupError = BindingNotFound(key: Key)

  /** Parents are created before their children, so parent links point to lower handles. */
  predicate Tree(w: World) {
    forall i | 0 <= i < |w.nodes| :: w.nodes[i].parent.Some? ==> w.nodes[i].parent.value < i
  }

  /** A cached singleton was made by the singleton binding of its key, before the counter's current value. */
  predicate CachedBy(n: Node, k: Key, nextId: nat)
    requires k in n.singletons
  {
    && k in n.bindings && n.bindings[k].Bound? && n.bindings[k].provider.singleton
    && n.singletons[k].Made? && n.singletons[k].product == n.bindings[k].provider.product
    && n.singletons[k].id < nextId
  }

  /** The invariant every reachable world keeps. */
  predicate Valid(w: World) {
    && Tree(w)
    && (forall i | 0 <= i < |w.nodes| :: InjectorKey in w.nodes[i].bindings && w.nodes[i].bindings[InjectorKey] == SelfBinding)
    && (forall i, k | 0 <= i < |w.nodes| && k in w.nodes[i].singletons :: CachedBy(w.nodes[i], k, w.nextId))
  }

  /** The injector `n` and its ancestors, nearest first. */
  function Chain(w: World, n: NodeId): (c: seq<NodeId>)
    requires Tree(w) && n < |w.nodes|
    ensures |c| > 0 && c[0] == n
    ensures forall i | 0 <= i < |c| :: c[i] < |w.nodes|
    decreases n
  {
    match w.nodes[n].parent
    case None => [n]
    case Some(p) => [n] + Chain(w, p)
  }

  /** The module classes applied to `n` or any of its ancestors. */
  function ChainModules(w: World, n: NodeId): set<ModuleId>
    requires Tree(w) && n < |w.nodes|
    decreases n
  {
    w.nodes[n].modules + match w.nodes[n].parent case None => {} case Some(p) => ChainModules(w, p)
  }

  /** `getProvider`: the nearest injector on the chain that binds `key`, with its binding. */
  function Lookup(w: World, n: NodeId, key: Key): (r: Option<(NodeId, Binding)>)
    requires Tree(w) && n < |w.nodes|
    ensures r.Some? ==> r.value.0 in Chain(w, n) && key in w.nodes[r.value.0].bindings && r.value.1 == w.nodes[r.value.0].bindings[key]
    decreases n
  {
    if key in w.nodes[n].bindings then Some((n, w.nodes[n].bindings[key]))
    else match w.nodes[n].parent
      case None => None
      case Some(p) => Lookup(w, p, key)
  }

  /** `getAllProviders`: every binding visible from `n`, the nearest one winning for each key. */
  function AllProviders(w: World, n: NodeId): map<Key, Binding>
    requires Tree(w) && n < |w.nodes|
    decreases n
  {
    match w.nodes[n].parent
    case None => w.nodes[n].bindings
    case Some(p) => AllProviders(w, p) + w.nodes[n].bindings
  }

  /** `getAllProviders` and `getProvider` agree: a key is listed iff lookup finds it, with the binding lookup finds. */
  lemma {:induction false} AllProvidersIsLookup(w: World, n: NodeId, key: Key)
    requires Tree(w) && n < |w.nodes|
    ensures key in AllProviders(w, n) <==> Lookup(w, n, key).Some?
    ensures key in AllProviders(w, n) ==> AllProviders(w, n)[key] == Lookup(w, n, key).value.1
    decreases n
  {
    if w.nodes[n].parent.Some? {
      AllProvidersIsLookup(w, w.nodes[n].parent.value, key);
    }
  }

  /** Position `i` of chain `c` is the first injector on it that binds `key`, with binding `found`. */
  ghost predicate NearestAt(w: World, c: seq<NodeId>, key: Key, found: (NodeId, Binding), i: int) {
    && 0 <= i < |c| && c[i] < |w.nodes|
    && c[i] == found.0 && key in w.nodes[c[i]].bindings && found.1 == w.nodes[c[i]].bindings[key]
    && forall j | 0 <= j < i :: c[j] < |w.nodes| && key !in w.nodes[c[j]].bindings
  }

  /** Lookup finds the binding of the first injector on the chain that has one, and no earlier one binds the key. */
  lemma {:induction false} LookupIsNearest(w: World, n: NodeId, key: Key)
    requires Tree(w) && n < |w.nodes|
    ensures Lookup(w, n, key).None? ==> forall i | 0 <= i < |Chain(w, n)| :: key !in w.nodes[Chain(w, n)[i]].bindings
    ensures Lookup(w, n, key).Some? ==> exists i :: NearestAt(w, Chain(w, n), key, Lookup(w, n, key).value, i)
    decreases n
  {
    var c := Chain(w, n);
    if key in w.nodes[n].bindings {
      assert Lookup(w, n, key) == Some((n, w.nodes[n].bindings[key]));
      assert NearestAt(w, c, key, (n, w.nodes[n].bindings[key]), 0);
    } else {
      match w.nodes[n].parent
      case None =>
        assert c == [n];
      case Some(p) =>
        LookupIsNearest(w, p, key);
        var cp := Chain(w, p);
        assert c == [n] + cp;
        match Lookup(w, p, key)
        case None =>
        case Some(found) =>
          var i :| NearestAt(w, cp, key, found, i);
          assert NearestAt(w, c, key, found, i + 1);
    }
  }

  /** Registers bindings one at a time; a key already bound at this injector is a configuration error. */
  function RegisterAll(b: map<Key, Binding>, ps: seq<(Key, Provider)>): Result<map<Key, Binding>, ConfigurationError>
    decreases |ps|
  {
    if ps == [] then Success(b)
    else
      var b' :- RegisterAll(b, ps[..|ps| - 1]);
      var (k, p) := ps[|ps| - 1];
      if k in b' then Failure(DuplicateBinding(k)) else Success(b'[k := Bound(p)])
  }

  predicate KeysDistinct(ps: seq<(Key, Provider)>) {
    forall i, j | 0 <= i < j < |ps| :: ps[i].0 != ps[j].0
  }

  /** A successful registration binds the old keys and the registered ones. */
  lemma {:induction false} RegisterAllKeys(b: map<Key, Binding>, ps: seq<(Key, Provider)>)
    ensures var r := RegisterAll(b, ps);
      r.Success? ==> r.value.Keys == b.Keys + (set i | 0 <= i < |ps| :: ps[i].0)
    decreases |ps|
  {
    if ps != [] {
      var init := ps[..|ps| - 1];
      RegisterAllKeys(b, init);
      assert forall i | 0 <= i < |init| :: init[i] == ps[i];
      assert (set i | 0 <= i < |ps| :: ps[i].0) == (set i | 0 <= i < |init| :: init[i].0) + {ps[|ps| - 1].0};
    }
  }

  /** A successful registration binds each registered key to its provider and keeps the old bindings. */
  lemma {:induction false} RegisterAllValues(b: map<Key, Binding>, ps: seq<(Key, Provider)>)
    ensures var r := RegisterAll(b, ps);
      r.Success? ==>
        && (forall i | 0 <= i < |ps| :: ps[i].0 in r.value && r.value[ps[i].0] == Bound(ps[i].1))
        && (forall k | k in b :: k in r.value && r.value[k] == b[k])
    decreases |ps|
  {
    if ps != [] {
      var init := ps[..|ps| - 1];
      RegisterAllValues(b, init);
      assert forall i | 0 <= i < |init| :: init[i] == ps[i];
    }
  }

  /** Registration succeeds iff the keys are new and pairwise distinct. */
  lemma {:induction false} RegisterAllSucceeds(b: map<Key, Binding>, ps: seq<(Key, Provider)>)
    ensures RegisterAll(b, ps).Success? <==> KeysDistinct(ps) && forall i | 0 <= i < |ps| :: ps[i].0 !in b
    decreases |ps|
  {
    if ps != [] {
      var init := ps[..|ps| - 1];
      var last := ps[|ps| - 1];
      RegisterAllSucceeds(b, init);
      RegisterAllKeys(b, init);
      assert forall i | 0 <= i < |init| :: init[i] == ps[i];
      if RegisterAll(b, init).Success? && last.0 in RegisterAll(b, init).value && last.0 !in b {
        var i :| 0 <= i < |init| && init[i].0 == last.0;
        assert ps[i].0 == ps[|ps| - 1].0;
      }
    }
  }

  /** Registration succeeds iff the keys are new and pairwise distinct, and then binds exactly them. */
  lemma RegisterAllContract(b: map<Key, Binding>, ps: seq<(Key, Provider)>)
    ensures var r := RegisterAll(b, ps);
      && (r.Success? <==> KeysDistinct(ps) && forall i | 0 <= i < |ps| :: ps[i].0 !in b)
      && (r.Success? ==>
            && r.value.Keys == b.Keys + (set i | 0 <= i < |ps| :: ps[i].0)
            && (forall i | 0 <= i < |ps| :: r.value[ps[i].0] == Bound(ps[i].1))
            && (forall k | k in b :: r.value[k] == b[k]))
  {
    RegisterAllKeys(b, ps);
    RegisterAllValues(b, ps);
    RegisterAllSucceeds(b, ps);
  }

  /** Applies the modules in order; a module class already applied on the chain or earlier in the call is a configuration error. */
  function Configure(b: map<Key, Binding>, ids: set<ModuleId>, inherited: set<ModuleId>, modules: seq<Module>): Result<(map<Key, Binding>, set<ModuleId>), ConfigurationError>
    decreases |modules|
  {
    if modules == [] then Success((b, ids))
    else
      var (b', ids') :- Configure(b, ids, inherited, modules[..|modules| - 1]);
      var m := modules[|modules| - 1];
      if m.id in inherited || m.id in ids' then Failure(DuplicateModule(m.id))
      else
        var b'' :- RegisterAll(b', m.registers);
        Success((b'', ids' + {m.id}))
  }

  /** Every binding the modules register, in registration order. */
  function Provided(modules: seq<Module>): seq<(Key, Provider)>
    decreases |modules|
  {
    if modules == [] then [] else Provided(modules[..|modules| - 1]) + modules[|modules| - 1].registers
  }

  predicate ModulesDistinct(modules: seq<Module>) {
    forall i, j | 0 <= i < j < |modules| :: modules[i].id != modules[j].id
  }

  /** The module classes of the call are new to the chain and to the injector, and pairwise distinct. */
  predicate ModulesFresh(ids: set<ModuleId>, inherited: set<ModuleId>, modules: seq<Module>) {
    && (forall i | 0 <= i < |modules| :: modules[i].id !in inherited && modules[i].id !in ids)
    && forall i, j | 0 <= i < j < |modules| :: modules[i].id != modules[j].id
  }

  function ModuleIds(modules: seq<Module>): set<ModuleId> {
    set i | 0 <= i < |modules| :: modules[i].id
  }

  /** With fresh module classes, applying the modules is registering everything they provide. */
  lemma {:induction false} ConfigureRegisters(b: map<Key, Binding>, ids: set<ModuleId>, inherited: set<ModuleId>, modules: seq<Module>)
    requires ModulesFresh(ids, inherited, modules)
    ensures Configure(b, ids, inherited, modules) ==
      match RegisterAll(b, Provided(modules))
      case Success(b') => Success((b', ids + ModuleIds(modules)))
      case Failure(e) => Failure(e)
    decreases |modules|
  {
    if modules != [] {
      var init := modules[..|modules| - 1];
      var m := modules[|modules| - 1];
      assert forall i | 0 <= i < |init| :: init[i] == modules[i];
      ConfigureRegisters(b, ids, inherited, init);
      RegisterAppend(b, Provided(init), m.registers);
      assert Provided(modules) == Provided(init) + m.registers;
      assert ModuleIds(modules) == ModuleIds(init) + {m.id};
      assert m.id !in ModuleIds(init);
      match RegisterAll(b, Provided(init))
      case Failure(e) =>
      case Success(b') =>
        assert Configure(b, ids, inherited, init) == Success((b', ids + ModuleIds(init)));
        assert Configure(b, ids, inherited, modules) ==
          match RegisterAll(b', m.registers)
          case Success(b'') => Success((b'', ids + ModuleIds(init) + {m.id}))
          case Failure(e) => Failure(e);
        assert ids + ModuleIds(init) + {m.id} == ids + ModuleIds(modules);
        assert RegisterAll(b, Provided(modules)) == RegisterAll(b', m.registers);
    } else {
      assert ids + ModuleIds(modules) == ids;
    }
  }

  /** A successful configuration records exactly the module classes of the call on top of those before. */
  lemma {:induction false} ConfigureIds(b: map<Key, Binding>, ids: set<ModuleId>, inherited: set<ModuleId>, modules: seq<Module>)
    ensures var r := Configure(b, ids, inherited, modules);
      r.Success? ==> r.value.1 == ids + ModuleIds(modules)
    decreases |modules|
  {
    if modules != [] {
      var init := modules[..|modules| - 1];
      ConfigureIds(b, ids, inherited, init);
      assert forall i | 0 <= i < |init| :: init[i] == modules[i];
      assert ModuleIds(modules) == ModuleIds(init) + {modules[|modules| - 1].id};
    }
  }

  /** A module class already on the chain, already applied, or repeated in the call fails the configuration. */
  lemma {:induction false} ConfigureRejectsModules(b: map<Key, Binding>, ids: set<ModuleId>, inherited: set<ModuleId>, modules: seq<Module>)
    requires !ModulesFresh(ids, inherited, modules)
    ensures Configure(b, ids, inherited, modules).Failure?
    decreases |modules|
  {
    var init := modules[..|modules| - 1];
    var m := modules[|modules| - 1];
    assert forall i | 0 <= i < |init| :: init[i] == modules[i];
    if !ModulesFresh(ids, inherited, init) {
      ConfigureRejectsModules(b, ids, inherited, init);
    } else {
      ConfigureIds(b, ids, inherited, init);
      if m.id !in inherited && m.id !in ids {
        var i, j :| 0 <= i < j < |modules| && modules[i].id == modules[j].id;
        assert j == |modules| - 1;
        assert m.id in ModuleIds(init) by {
          assert init[i].id == m.id;
        }
      }
    }
  }

  /**
    Configuration succeeds iff no module class was applied on the chain before or appears twice
    in the call, and no key is bound twice at this injector; it then records every module class
    and binds every provided key.
   */
  lemma ConfigureContract(b: map<Key, Binding>, ids: set<ModuleId>, inherited: set<ModuleId>, modules: seq<Module>)
    ensures var r := Configure(b, ids, inherited, modules);
      var ps := Provided(modules);
      && (r.Success? <==> ModulesFresh(ids, inherited, modules) && KeysDistinct(ps) && (forall i | 0 <= i < |ps| :: ps[i].0 !in b))
      && (r.Success? ==> r.value.1 == ids + ModuleIds(modules) && RegisterAll(b, ps) == Success(r.value.0))
  {
    RegisterAllContract(b, Provided(modules));
    if ModulesFresh(ids, inherited, modules) {
      ConfigureRegisters(b, ids, inherited, modules);
    } else {
      ConfigureRejectsModules(b, ids, inherited, modules);
    }
  }

  /** Registering two lists in turn is registering their concatenation. */
  lemma {:induction false} RegisterAppend(b: map<Key, Binding>, ps: seq<(Key, Provider)>, qs: seq<(Key, Provider)>)
    ensures RegisterAll(b, ps + qs) == match RegisterAll(b, ps) case Success(b') => RegisterAll(b', qs) case Failure(e) => Failure(e)
    decreases |qs|
  {
    if qs == [] {
      assert ps + qs == ps;
    } else {
      var init := qs[..|qs| - 1];
      RegisterAppend(b, ps, init);
      assert (ps + qs)[..|ps + qs| - 1] == ps + init;
    }
  }

  /** `createInjector` (no parent) and `createChildInjector`: a new injector bound to itself, configured by `modules`. */
  function CreateInjector(w: World, parent: Option<NodeId>, modules: seq<Module>): Result<(World, NodeId), ConfigurationError>
    requires Tree(w) && (parent.Some? ==> parent.value < |w.nodes|)
  {
    var inherited := match parent case None => {} case Some(p) => ChainModules(w, p);
    var (b, ids) :- Configure(map[InjectorKey := SelfBinding], {}, inherited, modules);
    Success((w.(nodes := w.nodes + [Node(parent, b, ids, map[])]), |w.nodes|))
  }

  /**
    Creation succeeds iff no module class was applied to the parent's chain or is repeated, and
    no key is bound twice (the `Injector` key included); on success the world gains one injector
    under `parent`, binding itself and exactly the provided keys, and nothing else changes.
   */
  lemma CreateInjectorContract(w: World, parent: Option<NodeId>, modules: seq<Module>)
    requires Valid(w) && (parent.Some? ==> parent.value < |w.nodes|)
    ensures var r := CreateInjector(w, parent, modules);
      var ps := Provided(modules);
      var inherited := match parent case None => {} case Some(p) => ChainModules(w, p);
      && (r.Success? <==>
            && ModulesFresh({}, inherited, modules)
            && KeysDistinct(ps) && (forall i | 0 <= i < |ps| :: ps[i].0 != InjectorKey))
      && (r.Success? ==>
            var (w', n) := r.value;
            && n == |w.nodes| && |w'.nodes| == |w.nodes| + 1 && w'.nodes[..n] == w.nodes && w'.nextId == w.nextId
            && w'.nodes[n].parent == parent
            && w'.nodes[n].singletons == map[]
            && w'.nodes[n].modules == ModuleIds(modules)
            && w'.nodes[n].bindings.Keys == {InjectorKey} + (set i | 0 <= i < |ps| :: ps[i].0)
            && w'.nodes[n].bindings[InjectorKey] == SelfBinding
            && (forall i | 0 <= i < |ps| :: w'.nodes[n].bindings[ps[i].0] == Bound(ps[i].1))
            && Valid(w'))
  {
    var inherited := match parent case None => {} case Some(p) => ChainModules(w, p);
    var b := map[InjectorKey := SelfBinding];
    ConfigureContract(b, {}, inherited, modules);
    RegisterAllContract(b, Provided(modules));
    var r := CreateInjector(w, parent, modules);
    if r.Success? {
      var (w', n) := r.value;
      assert forall i | 0 <= i < |w.nodes| :: w'.nodes[i] == w.nodes[i];
    }
  }

  /** `v` has the injectors of `w`, with the same parents, bindings and module classes. */
  predicate SameStructure(w: World, v: World) {
    && |v.nodes| == |w.nodes|
    && forall i | 0 <= i < |w.nodes| ::
         v.nodes[i].parent == w.nodes[i].parent && v.nodes[i].bindings == w.nodes[i].bindings && v.nodes[i].modules == w.nodes[i].modules
  }

  /** The world after a `getInstance` that changed only the singleton cache of `owner` and the counter. */
  function Cache(w: World, owner: NodeId, key: Key, x: Instance): World
    requires owner < |w.nodes|
  {
    w.(nodes := w.nodes[owner := w.nodes[owner].(singletons := w.nodes[owner].singletons[key := x])])
  }

  /**
    `getInstance`: the nearest binding of `key` decides. The self-binding answers the injector that
    owns it. A singleton binding answers the instance cached at the injector that owns the binding,
    creating and caching it there on first use; any other binding creates a new instance.
   */
  function GetInstance(w: World, n: NodeId, key: Key): (r: Result<(World, Instance), LookupError>)
    requires Tree(w) && n < |w.nodes|
    ensures r.Success? ==> SameStructure(w, r.value.0)
  {
    match Lookup(w, n, key)
    case None => Failure(BindingNotFound(key))
    case Some((owner, SelfBinding)) => Success((w, InjectorInstance(owner)))
    case Some((owner, Bound(p))) =>
      if p.singleton && key in w.nodes[owner].singletons then Success((w, w.nodes[owner].singletons[key]))
      else
        var x := Made(w.nextId, p.product);
        var w' := if p.singleton then Cache(w, owner, key, x) else w;
        Success((w'.(nextId := w.nextId + 1), x))
  }

  /** Two worlds with the same parents, bindings and modules answer every lookup the same. */
  lemma {:induction false} LookupDependsOnBindings(w: World, v: World, n: NodeId, key: Key)
    requires Tree(w) && n < |w.nodes| && SameStructure(w, v)
    ensures Tree(v) && Lookup(v, n, key) == Lookup(w, n, key) && AllProviders(v, n) == AllProviders(w, n)
    ensures ChainModules(v, n) == ChainModules(w, n)
    decreases n
  {
    if w.nodes[n].parent.Some? {
      LookupDependsOnBindings(w, v, w.nodes[n].parent.value, key);
    }
  }

  /**
    `getInstance` fails exactly when no injector on the chain binds the key. Otherwise it keeps
    every parent link and binding, touches no cache but that of the injector owning the binding,
    keeps the world valid, and answers: the owning injector for the `Injector` key, the cached
    instance for a singleton already made, and otherwise a new object distinct from every object
    cached anywhere.
   */
  lemma GetInstanceContract(w: World, n: NodeId, key: Key)
    requires Valid(w) && n < |w.nodes|
    ensures var r := GetInstance(w, n, key);
      && (r.Failure? <==> Lookup(w, n, key).None?)
      && (r.Success? ==>
            var (w', x) := r.value;
            var (owner, b) := Lookup(w, n, key).value;
            && Valid(w') && SameStructure(w, w')
            && (forall i | 0 <= i < |w.nodes| && i != owner :: w'.nodes[i] == w.nodes[i])
            && (b == SelfBinding ==> w' == w && x == InjectorInstance(owner))
            && (b.Bound? && b.provider.singleton && key in w.nodes[owner].singletons ==>
                  w' == w && x == w.nodes[owner].singletons[key])
            && (b.Bound? && !(b.provider.singleton && key in w.nodes[owner].singletons) ==>
                  && x == Made(x.id, b.provider.product)
                  && (forall i, k | 0 <= i < |w.nodes| && k in w.nodes[i].singletons :: w.nodes[i].singletons[k] != x)
                  && (b.provider.singleton ==> key in w'.nodes[owner].singletons && w'.nodes[owner].singletons[key] == x)))
  {
    var r := GetInstance(w, n, key);
    if r.Success? {
      var (w', x) := r.value;
      var (owner, b) := Lookup(w, n, key).value;
      if b.Bound? && !(b.provider.singleton && key in w.nodes[owner].singletons) {
        assert forall i, k | 0 <= i < |w.nodes| && k in w.nodes[i].singletons :: CachedBy(w.nodes[i], k, w.nextId);
        forall i, k | 0 <= i < |w'.nodes| && k in w'.nodes[i].singletons
          ensures CachedBy(w'.nodes[i], k, w'.nextId)
        {
          if !(i == owner && k == key) {
            assert k in w.nodes[i].singletons && CachedBy(w.nodes[i], k, w.nextId);
          }
        }
      }
    }
  }

  /**
    Singletons are shared along the tree: once `getInstance` through `n` has produced a singleton,
    every injector whose lookup of the key reaches the same owning injector (the parent, a child,
    `n` itself) answers that same instance and leaves the world as it is.
   */
  lemma SingletonShared(w: World, n: NodeId, m: NodeId, key: Key)
    requires Valid(w) && n < |w.nodes| && m < |w.nodes|
    requires GetInstance(w, n, key).Success?
    requires Lookup(w, n, key).value.1.Bound? && Lookup(w, n, key).value.1.provider.singleton
    requires Lookup(w, m, key).Some? && Lookup(w, m, key).value.0 == Lookup(w, n, key).value.0
    ensures var (w', x) := GetInstance(w, n, key).value;
      GetInstance(w', m, key) == Success((w', x))
  {
    GetInstanceContract(w, n, key);
    var (w', x) := GetInstance(w, n, key).value;
    LookupDependsOnBindings(w, w', m, key);
  }

  /** `@Named("...")` with the given value. */
  function Named(value: string): Descriptor {
    Descriptor("Ljavax/inject/Named;", map["value" := Str(value)])
  }

  /** The world with no injectors. */
  const Empty: World := World([], 0)

  /** A module class new to the chain, binding pairwise distinct keys other than `Injector`, creates an injector binding exactly those keys. */
  lemma CreateWithModule(w: World, parent: Option<NodeId>, m: Module)
    requires Valid(w) && (parent.Some? ==> parent.value < |w.nodes|)
    requires parent.Some? ==> m.id !in ChainModules(w, parent.value)
    requires KeysDistinct(m.registers) && forall i | 0 <= i < |m.registers| :: m.registers[i].0 != InjectorKey
    ensures CreateInjector(w, parent, [m]).Success?
    ensures var (w', n) := CreateInjector(w, parent, [m]).value;
      && n == |w.nodes| && |w'.nodes| == n + 1 && w'.nodes[..n] == w.nodes && w'.nextId == w.nextId && Valid(w')
      && w'.nodes[n] == Node(parent, w'.nodes[n].bindings, {m.id}, map[])
      && w'.nodes[n].bindings.Keys == {InjectorKey} + (set i | 0 <= i < |m.registers| :: m.registers[i].0)
      && w'.nodes[n].bindings[InjectorKey] == SelfBinding
      && (forall i | 0 <= i < |m.registers| :: w'.nodes[n].bindings[m.registers[i].0] == Bound(m.registers[i].1))
  {
    var modules := [m];
    assert modules[..0] == [];
    assert Provided(modules) == m.registers;
    assert ModuleIds(modules) == {m.id};
    CreateInjectorContract(w, parent, modules);
  }

  /** Adding injectors changes no answer an existing injector gives. */
  lemma {:induction false} GrowthPreservesLookup(w: World, v: World, n: NodeId, key: Key)
    requires Tree(w) && Tree(v) && n < |w.nodes| <= |v.nodes| && v.nodes[..|w.nodes|] == w.nodes
    ensures Lookup(v, n, key) == Lookup(w, n, key) && AllProviders(v, n) == AllProviders(w, n) && ChainModules(v, n) == ChainModules(w, n)
    decreases n
  {
    assert v.nodes[n] == v.nodes[..|w.nodes|][n];
    if w.nodes[n].parent.Some? {
      GrowthPreservesLookup(w, v, w.nodes[n].parent.value, key);
    }
  }
}

=== FILE: injector_scenarios.dfy ===
/**
  The injector behaviour the runtime's tests assert, derived from the injector model: the
  scenarios of `LightsaberTest` (plain providers) and `ChildInjectionTest` (singleton providers
  declared with `@Provides @Singleton`).
 */
module InjectorScenarios {
  import opened Wrappers
  import opened Annotations
  import opened Injectors

  const StringKey: Key := Key("Ljava/lang/String;", None)
  const ObjectKey: Key := Key("Ljava/lang/Object;", None)

  function NamedString(value: string): Key {
    Key("Ljava/lang/String;", Some(Named(value)))
  }

  /** The modules of `LightsaberTest`. */
  const ParentModule: Module := Module("LightsaberTest$ParentModule", [(StringKey, Provider("Parent String", false))])
  const ChildModule: Module := Module("LightsaberTest$ChildModule", [(ObjectKey, Provider("Child Object", false))])
  const ChildAnnotatedModule: Module :=
    Module("LightsaberTest$ChildAnnotatedModule", [(NamedString("Annotated"), Provider("Child Annotated String", false))])

  /** The modules of `ChildInjectionTest`. */
  const SingletonParentModule: Module := Module("ChildInjectionTest$ParentModule", [(StringKey, Provider("Parent String", true))])
  const SingletonChildModule: Module :=
    Module("ChildInjectionTest$ChildModule", [(ObjectKey, Provider("Child Object", true)), (NamedString("Child String"), Provider("Child String", true))])

  /** `getInstance` succeeds with an object the provider of `product` made. */
  predicate Answers(r: Result<(World, Instance), LookupError>, product: string) {
    r.Success? && r.value.1.Made? && r.value.1.product == product
  }

  /** An injector whose nearest `Injector` binding is its own answers itself. */
  lemma AnswersSelf(w: World, n: NodeId)
    requires Tree(w) && n < |w.nodes| && Lookup(w, n, InjectorKey) == Some((n, SelfBinding))
    ensures GetInstance(w, n, InjectorKey) == Success((w, InjectorInstance(n)))
  {
  }

  /** An injector whose nearest binding of `key` is a plain provider answers a new object of that provider. */
  lemma AnswersBound(w: World, n: NodeId, key: Key, owner: NodeId, p: Provider)
    requires Tree(w) && n < |w.nodes| && Lookup(w, n, key) == Some((owner, Bound(p))) && !p.singleton
    ensures Answers(GetInstance(w, n, key), p.product)
  {
  }

  /** The keys a one-binding module registers. */
  lemma OneKey(m: Module, k: Key)
    requires |m.registers| == 1 && m.registers[0].0 == k
    ensures (set i | 0 <= i < |m.registers| :: m.registers[i].0) == {k}
  {
  }

  /** A provider map over three distinct keys lists three providers. */
  lemma ThreeProviders(m: map<Key, Binding>, a: Key, b: Key, c: Key)
    requires m.Keys == {a, b, c} && a != b && b != c && a != c
    ensures |m| == 3
  {
    assert |m.Keys| == |{a, b, c}| == 3;
  }

  /** The root injector of a test: `createInjector(m)` on an empty world. */
  lemma Root(m: Module)
    requires KeysDistinct(m.registers) && forall i | 0 <= i < |m.registers| :: m.registers[i].0 != InjectorKey
    ensures CreateInjector(Empty, None, [m]).Success?
    ensures var (w, root) := CreateInjector(Empty, None, [m]).value;
      && Valid(w) && root == 0 && |w.nodes| == 1 && w.nodes[0].parent.None? && w.nodes[0].modules == {m.id}
      && (forall i | 0 <= i < |m.registers| :: Lookup(w, root, m.registers[i].0) == Some((root, Bound(m.registers[i].1))))
      && Lookup(w, root, InjectorKey) == Some((root, SelfBinding))
      && ChainModules(w, root) == {m.id}
      && AllProviders(w, root).Keys == {InjectorKey} + (set i | 0 <= i < |m.registers| :: m.registers[i].0)
  {
    CreateWithModule(Empty, None, m);
  }

  /** `createChildInjector(parent, m)` with a module class new to the parent's chain. */
  lemma Child(w: World, p: NodeId, m: Module)
    requires Valid(w) && p < |w.nodes| && m.id !in ChainModules(w, p)
    requires KeysDistinct(m.registers) && forall i | 0 <= i < |m.registers| :: m.registers[i].0 != InjectorKey
    ensures CreateInjector(w, Some(p), [m]).Success?
    ensures var (w', c) := CreateInjector(w, Some(p), [m]).value;
      && Valid(w') && c == |w.nodes| && |w'.nodes| == c + 1 && w'.nextId == w.nextId
      && (forall q, k | 0 <= q < |w.nodes| :: Lookup(w', q, k) == Lookup(w, q, k))
      && (forall q | 0 <= q < |w.nodes| :: w'.nodes[q] == w.nodes[q])
      && Lookup(w', c, InjectorKey) == Some((c, SelfBinding)) && w'.nodes[c].singletons == map[]
      && (forall i | 0 <= i < |m.registers| :: Lookup(w', c, m.registers[i].0) == Some((c, Bound(m.registers[i].1))))
      && (forall k | k != InjectorKey && (forall i | 0 <= i < |m.registers| :: m.registers[i].0 != k) :: Lookup(w', c, k) == Lookup(w, p, k))
      && AllProviders(w', c).Keys == AllProviders(w, p).Keys + {InjectorKey} + (set i | 0 <= i < |m.registers| :: m.registers[i].0)
      && ChainModules(w', c) == ChainModules(w, p) + {m.id}
  {
    CreateWithModule(w, Some(p), m);
    var (w', c) := CreateInjector(w, Some(p), [m]).value;
    forall q, k | 0 <= q < |w.nodes|
      ensures Lookup(w', q, k) == Lookup(w, q, k)
    {
      GrowthPreservesLookup(w, w', q, k);
    }
    GrowthPreservesLookup(w, w', p, InjectorKey);
    forall q | 0 <= q < |w.nodes|
      ensures w'.nodes[q] == w.nodes[q]
    {
      assert w'.nodes[q] == w'.nodes[..c][q];
    }
  }

  /**
    `createInjector(ParentModule())`: two providers, the `Injector` key answering the injector
    itself, `String` answering "Parent String".
   */
  lemma CreateInjectorScenario()
    ensures CreateInjector(Empty, None, [ParentModule]).Success?
    ensures var (w, root) := CreateInjector(Empty, None, [ParentModule]).value;
      && GetInstance(w, root, InjectorKey) == Success((w, InjectorInstance(root)))
      && Answers(GetInstance(w, root, StringKey), "Parent String")
      && |AllProviders(w, root)| == 2 && InjectorKey in AllProviders(w, root) && StringKey in AllProviders(w, root)
  {
    Root(ParentModule);
    var (w, root) := CreateInjector(Empty, None, [ParentModule]).value;
    CreateWithModule(Empty, None, ParentModule);
    assert AllProviders(w, root).Keys == {InjectorKey, StringKey};
  }

  /**
    `createChildInjector(injector, ChildModule())`: the `Injector` key answers the injector it is
    asked of, the child sees the parent's `String` and its own `Object`, and lists three providers
    (its own `Injector` binding shadowing the parent's).
   */
  lemma CreateChildInjectorScenario()
    ensures CreateInjector(Empty, None, [ParentModule]).Success?
    ensures var (w1, root) := CreateInjector(Empty, None, [ParentModule]).value;
      && CreateInjector(w1, Some(root), [ChildModule]).Success?
      && var (w, child) := CreateInjector(w1, Some(root), [ChildModule]).value;
      && GetInstance(w, root, InjectorKey) == Success((w, InjectorInstance(root)))
      && GetInstance(w, child, InjectorKey) == Success((w, InjectorInstance(child)))
      && Answers(GetInstance(w, child, StringKey), "Parent String")
      && Answers(GetInstance(w, child, ObjectKey), "Child Object")
      && |AllProviders(w, child)| == 3
  {
    Root(ParentModule);
    var (w1, root) := CreateInjector(Empty, None, [ParentModule]).value;
    assert ParentModule.registers[0].0 == StringKey;
    Child(w1, root, ChildModule);
    var (w, child) := CreateInjector(w1, Some(root), [ChildModule]).value;
    assert ChildModule.registers[0].0 == ObjectKey;
    AnswersSelf(w, root);
    AnswersSelf(w, child);
    AnswersBound(w, child, StringKey, root, Provider("Parent String", false));
    AnswersBound(w, child, ObjectKey, child, Provider("Child Object", false));
    OneKey(ChildModule, ObjectKey);
    OneKey(ParentModule, StringKey);
    assert AllProviders(w, child).Keys == {InjectorKey, StringKey, ObjectKey};
    ThreeProviders(AllProviders(w, child), InjectorKey, StringKey, ObjectKey);
  }

  /**
    `createChildInjector(injector, ChildAnnotatedModule())`: `@Named("Annotated") String` is a
    key of its own, answered by the child, while plain `String` still answers the parent's binding.
   */
  lemma CreateChildInjectorWithAnnotationScenario()
    ensures CreateInjector(Empty, None, [ParentModule]).Success?
    ensures var (w1, root) := CreateInjector(Empty, None, [ParentModule]).value;
      && CreateInjector(w1, Some(root), [ChildAnnotatedModule]).Success?
      && var (w, child) := CreateInjector(w1, Some(root), [ChildAnnotatedModule]).value;
      && NamedString("Annotated") != StringKey
      && GetInstance(w, child, InjectorKey) == Success((w, InjectorInstance(child)))
      && Answers(GetInstance(w, child, StringKey), "Parent String")
      && Answers(GetInstance(w, child, NamedString("Annotated")), "Child Annotated String")
      && |AllProviders(w, child)| == 3
  {
    Root(ParentModule);
    var (w1, root) := CreateInjector(Empty, None, [ParentModule]).value;
    assert ParentModule.registers[0].0 == StringKey;
    Child(w1, root, ChildAnnotatedModule);
    var (w, child) := CreateInjector(w1, Some(root), [ChildAnnotatedModule]).value;
    var annotated := NamedString("Annotated");
    assert ChildAnnotatedModule.registers[0].0 == annotated;
    assert annotated != StringKey;
    assert Lookup(w, child, StringKey) == Lookup(w1, root, StringKey);
    OneKey(ChildAnnotatedModule, annotated);
    OneKey(ParentModule, StringKey);
    assert AllProviders(w, child).Keys == {InjectorKey, StringKey, annotated};
    ThreeProviders(AllProviders(w, child), InjectorKey, StringKey, annotated);
  }

  /**
    What `NamedProxy.equals` may be handed: a `Named` (another `NamedProxy`, or the annotation
    instance the JVM makes for a `@Named` use), or any other object, `null` included.
   */
  datatype QualifierObject = NamedProxyObject(value: string) | NamedAnnotationObject(value: string) | NotNamed

  /** `NamedProxy.equals`: any `Named` whose `value()` is equal. */
  function NamedProxyEquals(value: string, other: QualifierObject): bool {
    match other
    case NotNamed => false
    case _ => value == other.value
  }

  /**
    Modelling a `NamedProxy` qualifier by the `@Named` descriptor of its value is sound: the proxy
    equals another object iff that object is a `Named` whose descriptor makes the same key, so
    both reach the same binding from every injector.
   */
  lemma NamedProxyEqualsIsKeyEquality(value: string, other: QualifierObject)
    ensures NamedProxyEquals(value, other) <==> !other.NotNamed? && NamedString(other.value) == NamedString(value)
    ensures NamedProxyEquals(value, other) ==>
      forall w: World, n: NodeId | Tree(w) && n < |w.nodes| :: Lookup(w, n, NamedString(other.value)) == Lookup(w, n, NamedString(value))
  {
    if !other.NotNamed? && NamedString(other.value) == NamedString(value) {
      assert Named(other.value).values["value"] == Str(other.value);
      assert Named(value).values["value"] == Str(value);
    }
  }

  /** `createChildInjector(injector, ParentModule())` fails: the module class is already applied to the parent. */
  lemma CreateChildInjectorWithSameModuleScenario()
    ensures CreateInjector(Empty, None, [ParentModule]).Success?
    ensures var (w1, root) := CreateInjector(Empty, None, [ParentModule]).value;
      CreateInjector(w1, Some(root), [ParentModule]).Failure?
  {
    Root(ParentModule);
    var (w1, root) := CreateInjector(Empty, None, [ParentModule]).value;
    CreateInjectorContract(w1, Some(root), [ParentModule]);
  }

  /** The parent and child of `ChildInjectionTest`, created one after the other. */
  lemma SingletonFamily(w1: World, root: NodeId)
    requires CreateInjector(Empty, None, [SingletonParentModule]).Success?
    requires (w1, root) == CreateInjector(Empty, None, [SingletonParentModule]).value
    ensures Valid(w1) && root < |w1.nodes| && ChainModules(w1, root) == {SingletonParentModule.id}
    ensures Lookup(w1, root, StringKey) == Some((root, Bound(Provider("Parent String", true))))
  {
    Root(SingletonParentModule);
    assert SingletonParentModule.registers[0].0 == StringKey;
  }

  /** The child module of `ChildInjectionTest` binds only `Object` and `@Named("Child String") String`. */
  lemma SingletonChildKeys()
    ensures KeysDistinct(SingletonChildModule.registers)
    ensures forall i | 0 <= i < |SingletonChildModule.registers| :: SingletonChildModule.registers[i].0 != InjectorKey
    ensures forall i | 0 <= i < |SingletonChildModule.registers| :: SingletonChildModule.registers[i].0 != StringKey
    ensures SingletonChildModule.registers[0] == (ObjectKey, Provider("Child Object", true))
  {
    assert NamedString("Child String") != StringKey;
  }

  /**
    A singleton made through the parent before the child exists is the instance both the parent
    and the child answer afterwards; the child's `@Named("Child String") String` does not shadow
    the parent's `String`.
   */
  lemma SingletonBeforeChildScenario(w1: World, root: NodeId)
    requires CreateInjector(Empty, None, [SingletonParentModule]).Success?
    requires (w1, root) == CreateInjector(Empty, None, [SingletonParentModule]).value
    ensures Valid(w1) && root < |w1.nodes|
    ensures var r := GetInstance(w1, root, StringKey);
      && Answers(r, "Parent String")
      && var (w2, x) := r.value;
      && CreateInjector(w2, Some(root), [SingletonChildModule]).Success?
      && var (w, child) := CreateInjector(w2, Some(root), [SingletonChildModule]).value;
      && GetInstance(w, root, StringKey) == Success((w, x))
      && GetInstance(w, child, StringKey) == Success((w, x))
  {
    SingletonFamily(w1, root);
    GetInstanceContract(w1, root, StringKey);
    var (w2, x) := GetInstance(w1, root, StringKey).value;
    LookupDependsOnBindings(w1, w2, root, StringKey);
    SingletonChildKeys();
    Child(w2, root, SingletonChildModule);
    var (w, child) := CreateInjector(w2, Some(root), [SingletonChildModule]).value;
    assert w.nodes[root] == w2.nodes[root];
  }

  /** A parent singleton first made through the parent after the child exists is shared with the child. */
  lemma SingletonAfterChildScenario(w1: World, root: NodeId)
    requires CreateInjector(Empty, None, [SingletonParentModule]).Success?
    requires (w1, root) == CreateInjector(Empty, None, [SingletonParentModule]).value
    ensures Valid(w1) && root < |w1.nodes|
    ensures CreateInjector(w1, Some(root), [SingletonChildModule]).Success?
    ensures var (w2, child) := CreateInjector(w1, Some(root), [SingletonChildModule]).value;
      && Tree(w2) && root < child < |w2.nodes|
      && Answers(GetInstance(w2, root, StringKey), "Parent String")
      && var (w, x) := GetInstance(w2, root, StringKey).value;
      && GetInstance(w, root, StringKey) == Success((w, x))
      && GetInstance(w, child, StringKey) == Success((w, x))
  {
    SingletonFamily(w1, root);
    SingletonChildKeys();
    Child(w1, root, SingletonChildModule);
    var (w2, child) := CreateInjector(w1, Some(root), [SingletonChildModule]).value;
    GetInstanceContract(w2, root, StringKey);
    SingletonShared(w2, root, root, StringKey);
    SingletonShared(w2, root, child, StringKey);
  }

  /** A parent singleton first made through the child is cached at the parent, so the parent answers it too. */
  lemma SingletonInChildScenario(w1: World, root: NodeId)
    requires CreateInjector(Empty, None, [SingletonParentModule]).Success?
    requires (w1, root) == CreateInjector(Empty, None, [SingletonParentModule]).value
    ensures Valid(w1) && root < |w1.nodes|
    ensures CreateInjector(w1, Some(root), [SingletonChildModule]).Success?
    ensures var (w2, child) := CreateInjector(w1, Some(root), [SingletonChildModule]).value;
      && Tree(w2) && root < child < |w2.nodes|
      && Answers(GetInstance(w2, child, StringKey), "Parent String")
      && var (w, x) := GetInstance(w2, child, StringKey).value;
      && StringKey in w.nodes[root].singletons && w.nodes[root].singletons[StringKey] == x
      && GetInstance(w, root, StringKey) == Success((w, x))
      && GetInstance(w, child, StringKey) == Success((w, x))
  {
    SingletonFamily(w1, root);
    SingletonChildKeys();
    Child(w1, root, SingletonChildModule);
    var (w2, child) := CreateInjector(w1, Some(root), [SingletonChildModule]).value;
    GetInstanceContract(w2, child, StringKey);
    SingletonShared(w2, child, root, StringKey);
    SingletonShared(w2, child, child, StringKey);
  }

  /** Two injectors that each bind `key` to a singleton not yet made answer two different objects. */
  lemma TwoFreshSingletons(w: World, n1: NodeId, n2: NodeId, key: Key, product: string)
    requires Valid(w) && n1 < |w.nodes| && n2 < |w.nodes| && n1 != n2
    requires Lookup(w, n1, key) == Some((n1, Bound(Provider(product, true)))) && key !in w.nodes[n1].singletons
    requires Lookup(w, n2, key) == Some((n2, Bound(Provider(product, true)))) && key !in w.nodes[n2].singletons
    ensures Answers(GetInstance(w, n1, key), product)
    ensures var (w', x1) := GetInstance(w, n1, key).value;
      && Tree(w') && n2 < |w'.nodes|
      && Answers(GetInstance(w', n2, key), product)
      && GetInstance(w', n2, key).value.1 != x1
  {
    GetInstanceContract(w, n1, key);
    var (w', x1) := GetInstance(w, n1, key).value;
    LookupDependsOnBindings(w, w', n2, key);
    GetInstanceContract(w', n2, key);
    assert w'.nodes[n1].singletons[key] == x1;
  }

  /** Two children made from the same child module each make their own singleton: sibling modules are not checked against each other. */
  lemma SingletonInTwoChildrenScenario(w1: World, root: NodeId)
    requires CreateInjector(Empty, None, [SingletonParentModule]).Success?
    requires (w1, root) == CreateInjector(Empty, None, [SingletonParentModule]).value
    ensures Valid(w1) && root < |w1.nodes|
    ensures CreateInjector(w1, Some(root), [SingletonChildModule]).Success?
    ensures var (w2, child1) := CreateInjector(w1, Some(root), [SingletonChildModule]).value;
      && Tree(w2) && root < |w2.nodes|
      && CreateInjector(w2, Some(root), [SingletonChildModule]).Success?
      && var (w3, child2) := CreateInjector(w2, Some(root), [SingletonChildModule]).value;
      && Tree(w3) && child1 < child2 < |w3.nodes|
      && Answers(GetInstance(w3, child1, ObjectKey), "Child Object")
      && var (w4, x1) := GetInstance(w3, child1, ObjectKey).value;
      && Tree(w4) && child2 < |w4.nodes|
      && Answers(GetInstance(w4, child2, ObjectKey), "Child Object")
      && GetInstance(w4, child2, ObjectKey).value.1 != x1
  {
    SingletonFamily(w1, root);
    SingletonChildKeys();
    Child(w1, root, SingletonChildModule);
    var (w2, child1) := CreateInjector(w1, Some(root), [SingletonChildModule]).value;
    Child(w2, root, SingletonChildModule);
    var (w3, child2) := CreateInjector(w2, Some(root), [SingletonChildModule]).value;
    assert w3.nodes[child1] == w2.nodes[child1];
    TwoFreshSingletons(w3, child1, child2, ObjectKey, "Child Object");
  }

  /** A child created with the parent's own module class fails. */
  lemma ChildWithParentModuleScenario(w1: World, root: NodeId)
    requires CreateInjector(Empty, None, [SingletonParentModule]).Success?
    requires (w1, root) == CreateInjector(Empty, None, [SingletonParentModule]).value
    ensures Valid(w1) && root < |w1.nodes|
    ensures CreateInjector(w1, Some(root), [SingletonParentModule]).Failure?
  {
    SingletonFamily(w1, root);
    CreateInjectorContract(w1, Some(root), [SingletonParentModule]);
  }
}

=== FILE: module_method_analysis.dfy ===
/**
  The processor's `ModuleMethodAnalyzer`: classifies the annotations of one method of a module
  and, when the method carries `@Provides`, registers it as a provider method with the qualifier
  and scope it collected.

  The ASM visitor sees the method's annotations one at a time; the model folds over them in
  order. Each annotation comes with what the processor context knows about its type (whether
  it is a qualifier, which scope it names), since those lookups are outside this model.
 */
module ModuleMethodAnalysis {
  import opened Wrappers
  import opened Annotations
  import opened Registry

  /** The type of `@Provides`. */
  const ProvidesType: TypeName := "Lio/michaelrocks/lightsaber/Provides;"

  /** One annotation of the method, as parsed, with the context's knowledge of its type. */
  datatype MethodAnnotation = MethodAnnotation(
    data: AnnotationData,
    isQualifier: bool,
    scope: Option<TypeName>)

  datatype AnalysisError = MultipleQualifiers | MultipleScopes

  /** The analyzer's fields while the method's annotations are visited. */
  datatype MethodState = MethodState(
    isProvider: bool,
    qualifier: Option<AnnotationData>,
    scope: Option<TypeName>,
    errors: seq<AnalysisError>,
    registry: Registry)

  /** A method of a module registered as a provider. */
  datatype ProviderMethod = ProviderMethod(name: string, desc: string, scope: Option<TypeName>, qualifier: Option<AnnotationData>)

  /** The four classes, checked in the analyzer's priority order: Provides, then qualifier, then scope. */
  predicate IsProvides(a: MethodAnnotation) {
    a.data.kind == ProvidesType
  }

  predicate IsQualifier(a: MethodAnnotation) {
    !IsProvides(a) && a.isQualifier
  }

  predicate IsScope(a: MethodAnnotation) {
    !IsProvides(a) && !a.isQualifier && a.scope.Some?
  }

  predicate IsOther(a: MethodAnnotation) {
    !IsProvides(a) && !a.isQualifier && a.scope.None?
  }

  /** `visitAnnotation` (together with the qualifier parser's `visitEnd`). */
  function VisitAnnotation(s: MethodState, a: MethodAnnotation): (r: MethodState)
    ensures IsProvides(a) ==> r == s.(isProvider := true)
    ensures IsQualifier(a) && s.qualifier.None? ==>
      && r.qualifier.Some? && AnnotationResolvesTo(a.data, r.qualifier.value)
      && r.qualifier == Some(ResolveAnnotation(s.registry, a.data).value)
      && r.registry == ResolveAnnotation(s.registry, a.data).registry
      && r.isProvider == s.isProvider && r.scope == s.scope && r.errors == s.errors
      && Evolves(s.registry, r.registry)
    ensures IsQualifier(a) && s.qualifier.Some? ==> r == s.(errors := s.errors + [MultipleQualifiers])
    ensures IsScope(a) && s.scope.None? ==> r == s.(scope := a.scope)
    ensures IsScope(a) && s.scope.Some? ==> r == s.(errors := s.errors + [MultipleScopes])
    ensures IsOther(a) ==> r == s
  {
    if a.data.kind == ProvidesType then s.(isProvider := true)
    else if a.isQualifier then
      if s.qualifier.None? then
        var q := ResolveAnnotation(s.registry, a.data);
        AnnotationResolves(s.registry, a.data);
        AnnotationEvolves(s.registry, a.data);
        s.(qualifier := Some(q.value), registry := q.registry)
      else s.(errors := s.errors + [MultipleQualifiers])
    else if s.scope.None? then s.(scope := a.scope)
    else if a.scope.Some? then s.(errors := s.errors + [MultipleScopes])
    else s
  }

  /** The analyzer's state after visiting `anns` in order. */
  function VisitAll(s: MethodState, anns: seq<MethodAnnotation>): MethodState
    decreases |anns|
  {
    if anns == [] then s else VisitAll(VisitAnnotation(s, anns[0]), anns[1..])
  }

  /** Index of the first annotation of `anns` satisfying the qualifier (or scope) test. */
  function FirstQualifier(anns: seq<MethodAnnotation>): (r: Option<nat>)
    ensures r.Some? ==> r.value < |anns| && IsQualifier(anns[r.value]) && forall j | 0 <= j < r.value :: !IsQualifier(anns[j])
    ensures r.None? ==> forall j | 0 <= j < |anns| :: !IsQualifier(anns[j])
  {
    if anns == [] then None
    else if IsQualifier(anns[0]) then Some(0)
    else match FirstQualifier(anns[1..]) case Some(i) => Some(i + 1) case None => None
  }

  function FirstScope(anns: seq<MethodAnnotation>): (r: Option<nat>)
    ensures r.Some? ==> r.value < |anns| && IsScope(anns[r.value]) && forall j | 0 <= j < r.value :: !IsScope(anns[j])
    ensures r.None? ==> forall j | 0 <= j < |anns| :: !IsScope(anns[j])
  {
    if anns == [] then None
    else if IsScope(anns[0]) then Some(0)
    else match FirstScope(anns[1..]) case Some(i) => Some(i + 1) case None => None
  }

  function QualifierCount(anns: seq<MethodAnnotation>): nat {
    if anns == [] then 0 else (if IsQualifier(anns[0]) then 1 else 0) + QualifierCount(anns[1..])
  }

  function ScopeCount(anns: seq<MethodAnnotation>): nat {
    if anns == [] then 0 else (if IsScope(anns[0]) then 1 else 0) + ScopeCount(anns[1..])
  }

  function Occurrences(errors: seq<AnalysisError>, e: AnalysisError): nat {
    if errors == [] then 0 else (if errors[0] == e then 1 else 0) + Occurrences(errors[1..], e)
  }

  lemma {:induction false} OccurrencesAppend(errors: seq<AnalysisError>, extra: seq<AnalysisError>, e: AnalysisError)
    ensures Occurrences(errors + extra, e) == Occurrences(errors, e) + Occurrences(extra, e)
    decreases |errors|
  {
    if errors != [] {
      assert (errors + extra)[1..] == errors[1..] + extra;
      OccurrencesAppend(errors[1..], extra, e);
    } else {
      assert errors + extra == extra;
    }
  }

  /** The method becomes a provider iff one of the annotations is `@Provides` (or it already was). */
  lemma {:induction false} ProvidesSeen(s: MethodState, anns: seq<MethodAnnotation>)
    ensures VisitAll(s, anns).isProvider <==> s.isProvider || exists i | 0 <= i < |anns| :: IsProvides(anns[i])
    decreases |anns|
  {
    if anns != [] {
      var t := VisitAnnotation(s, anns[0]);
      ProvidesSeen(t, anns[1..]);
      if !s.isProvider && !t.isProvider && (exists i | 0 <= i < |anns| :: IsProvides(anns[i])) {
        var i :| 0 <= i < |anns| && IsProvides(anns[i]);
        assert IsProvides(anns[1..][i - 1]);
      }
    }
  }

  /** The first qualifier is kept, in its resolved form; later ones never replace it. */
  lemma {:induction false} FirstQualifierKept(s: MethodState, anns: seq<MethodAnnotation>)
    ensures var r := VisitAll(s, anns);
      && (s.qualifier.Some? ==> r.qualifier == s.qualifier)
      && (s.qualifier.None? ==> (r.qualifier.Some? <==> FirstQualifier(anns).Some?))
      && (s.qualifier.None? && FirstQualifier(anns).Some? ==>
            && AnnotationResolvesTo(anns[FirstQualifier(anns).value].data, r.qualifier.value)
            && r.qualifier == Some(ResolveAnnotation(s.registry, anns[FirstQualifier(anns).value].data).value))
    decreases |anns|
  {
    if anns != [] {
      var t := VisitAnnotation(s, anns[0]);
      FirstQualifierKept(t, anns[1..]);
      if s.qualifier.None? && !IsQualifier(anns[0]) && FirstQualifier(anns).Some? {
        // Nothing before the first qualifier touches the registry it is resolved against.
        assert t.registry == s.registry;
        assert anns[1..][FirstQualifier(anns[1..]).value] == anns[FirstQualifier(anns).value];
      }
    }
  }

  /** The scope of the first scope annotation is kept; later ones never replace it. */
  lemma {:induction false} FirstScopeKept(s: MethodState, anns: seq<MethodAnnotation>)
    ensures VisitAll(s, anns).scope == (if s.scope.Some? || FirstScope(anns).None? then s.scope else anns[FirstScope(anns).value].scope)
    decreases |anns|
  {
    if anns != [] {
      FirstScopeKept(VisitAnnotation(s, anns[0]), anns[1..]);
    }
  }

  /** Errors are only ever appended. */
  lemma {:induction false} ErrorsAppended(s: MethodState, anns: seq<MethodAnnotation>)
    ensures |s.errors| <= |VisitAll(s, anns).errors| && VisitAll(s, anns).errors[..|s.errors|] == s.errors
    decreases |anns|
  {
    if anns != [] {
      var t := VisitAnnotation(s, anns[0]);
      ErrorsAppended(t, anns[1..]);
      var r := VisitAll(t, anns[1..]);
      assert r.errors[..|s.errors|] == r.errors[..|t.errors|][..|s.errors|];
    }
  }

  /** Every qualifier annotation after the first reports exactly one "multiple qualifier annotations" error. */
  lemma {:induction false} QualifierErrorsCounted(s: MethodState, anns: seq<MethodAnnotation>)
    ensures Occurrences(VisitAll(s, anns).errors, MultipleQualifiers) ==
      Occurrences(s.errors, MultipleQualifiers) + QualifierCount(anns) - (if s.qualifier.None? && QualifierCount(anns) > 0 then 1 else 0)
    decreases |anns|
  {
    if anns != [] {
      var t := VisitAnnotation(s, anns[0]);
      QualifierErrorsCounted(t, anns[1..]);
      if t.errors != s.errors {
        OccurrencesAppend(s.errors, t.errors[|s.errors|..], MultipleQualifiers);
      }
      if s.qualifier.None? && !IsQualifier(anns[0]) {
        QualifierCountNone(anns);
      }
    }
  }

  /** Every scope annotation after the first reports exactly one "multiple scope annotations" error. */
  lemma {:induction false} ScopeErrorsCounted(s: MethodState, anns: seq<MethodAnnotation>)
    ensures Occurrences(VisitAll(s, anns).errors, MultipleScopes) ==
      Occurrences(s.errors, MultipleScopes) + ScopeCount(anns) - (if s.scope.None? && ScopeCount(anns) > 0 then 1 else 0)
    decreases |anns|
  {
    if anns != [] {
      var t := VisitAnnotation(s, anns[0]);
      ScopeErrorsCounted(t, anns[1..]);
      if t.errors != s.errors {
        OccurrencesAppend(s.errors, t.errors[|s.errors|..], MultipleScopes);
      }
      if s.scope.None? && !IsScope(anns[0]) {
        ScopeCountNone(anns);
      }
    }
  }

  lemma {:induction false} QualifierCountNone(anns: seq<MethodAnnotation>)
    ensures QualifierCount(anns) > 0 <==> FirstQualifier(anns).Some?
    decreases |anns|
  {
    if anns != [] {
      QualifierCountNone(anns[1..]);
    }
  }

  lemma {:induction false} ScopeCountNone(anns: seq<MethodAnnotation>)
    ensures ScopeCount(anns) > 0 <==> FirstScope(anns).Some?
    decreases |anns|
  {
    if anns != [] {
      ScopeCountNone(anns[1..]);
    }
  }

  /** The outcome of analysing one method: the provider method registered (if any), the errors reported, the registry afterwards. */
  datatype MethodAnalysis = MethodAnalysis(provider: Option<ProviderMethod>, errors: seq<AnalysisError>, registry: Registry)

  /** A fresh analyzer visits every annotation, then `visitEnd` registers the provider method. */
  function AnalyzeMethod(reg: Registry, name: string, desc: string, anns: seq<MethodAnnotation>): MethodAnalysis {
    var r := VisitAll(MethodState(false, None, None, [], reg), anns);
    MethodAnalysis(if r.isProvider then Some(ProviderMethod(name, desc, r.scope, r.qualifier)) else None, r.errors, r.registry)
  }

  /**
    A provider method is registered iff `@Provides` was seen, with exactly the scope of the first
    scope annotation and the resolved first qualifier (either may be absent); each surplus
    qualifier or scope annotation reports one error, and nothing else does.
   */
  lemma AnalyzeMethodContract(reg: Registry, name: string, desc: string, anns: seq<MethodAnnotation>)
    ensures var m := AnalyzeMethod(reg, name, desc, anns);
      && (m.provider.Some? <==> exists i | 0 <= i < |anns| :: IsProvides(anns[i]))
      && (m.provider.Some? ==>
            && m.provider.value.name == name && m.provider.value.desc == desc
            && m.provider.value.scope == (if FirstScope(anns).Some? then anns[FirstScope(anns).value].scope else None)
            && (m.provider.value.qualifier.Some? <==> FirstQualifier(anns).Some?)
            && (FirstQualifier(anns).Some? ==>
                  && AnnotationResolvesTo(anns[FirstQualifier(anns).value].data, m.provider.value.qualifier.value)
                  && m.provider.value.qualifier == Some(ResolveAnnotation(reg, anns[FirstQualifier(anns).value].data).value)))
      && Occurrences(m.errors, MultipleQualifiers) == (if QualifierCount(anns) > 0 then QualifierCount(anns) - 1 else 0)
      && Occurrences(m.errors, MultipleScopes) == (if ScopeCount(anns) > 0 then ScopeCount(anns) - 1 else 0)
      && |m.errors| == Occurrences(m.errors, MultipleQualifiers) + Occurrences(m.errors, MultipleScopes)
  {
    var s := MethodState(false, None, None, [], reg);
    ProvidesSeen(s, anns);
    FirstQualifierKept(s, anns);
    FirstScopeKept(s, anns);
    QualifierErrorsCounted(s, anns);
    ScopeErrorsCounted(s, anns);
    ErrorsAreOfTwoKinds(VisitAll(s, anns).errors);
  }

  lemma {:induction false} ErrorsAreOfTwoKinds(errors: seq<AnalysisError>)
    ensures |errors| == Occurrences(errors, MultipleQualifiers) + Occurrences(errors, MultipleScopes)
    decreases |errors|
  {
    if errors != [] {
      ErrorsAreOfTwoKinds(errors[1..]);
    }
  }
}

=== FILE: names.dfy ===
/**
  Attribute names and the order in which a resolver visits them.

  The processor keeps annotation attributes in a Java HashMap and walks its entry set; that
  order is deterministic but unspecified. The model fixes it to the lexicographic order of the
  names, so every walk over a map of attributes is a function of the map alone.
 */
module Names {

  /** Strict lexicographic order on strings, character by character. */
  predicate Less(a: string, b: string)
    decreases |a|
  {
    |b| > 0 && (|a| == 0 || a[0] < b[0] || (a[0] == b[0] && Less(a[1..], b[1..])))
  }

  lemma {:induction false} LessIrreflexive(a: string)
    ensures !Less(a, a)
    decreases |a|
  {
    if |a| > 0 {
      LessIrreflexive(a[1..]);
    }
  }

  lemma {:induction false} LessTransitive(a: string, b: string, c: string)
    requires Less(a, b) && Less(b, c)
    ensures Less(a, c)
    decreases |a|
  {
    if |a| > 0 && a[0] == b[0] && b[0] == c[0] {
      LessTransitive(a[1..], b[1..], c[1..]);
    }
  }

  lemma {:induction false} LessTotal(a: string, b: string)
    ensures a == b || Less(a, b) || Less(b, a)
    decreases |a|
  {
    if |a| > 0 && |b| > 0 && a[0] == b[0] {
      LessTotal(a[1..], b[1..]);
      if a[1..] == b[1..] {
        assert a == [a[0]] + a[1..] && b == [b[0]] + b[1..];
      }
    }
  }

  /** `m` is the smallest name of `s`. */
  predicate IsLeast(m: string, s: set<string>) {
    m in s && forall x | x in s :: x == m || Less(m, x)
  }

  lemma {:induction false} LeastExists(s: set<string>)
    requires s != {}
    ensures exists m :: IsLeast(m, s)
    decreases s
  {
    var x :| x in s;
    var rest := s - {x};
    if rest != {} {
      LeastExists(rest);
      var m :| IsLeast(m, rest);
      LessTotal(x, m);
      if Less(x, m) {
        forall y | y in s
          ensures y == x || Less(x, y)
        {
          if y != x && y != m {
            LessTransitive(x, m, y);
          }
        }
        assert IsLeast(x, s);
      } else {
        assert IsLeast(m, s);
      }
    } else {
      assert s == {x};
      assert IsLeast(x, s);
    }
  }

  lemma LeastUnique(s: set<string>)
    ensures forall m, n | IsLeast(m, s) && IsLeast(n, s) :: m == n
  {
    forall m, n | IsLeast(m, s) && IsLeast(n, s)
      ensures m == n
    {
      if m != n {
        assert Less(m, n) && Less(n, m);
        LessTransitive(m, n, m);
        LessIrreflexive(m);
      }
    }
  }

  function Least(s: set<string>): (m: string)
    requires s != {}
    ensures m in s
    ensures forall x | x in s && x != m :: Less(m, x)
  {
    LeastExists(s);
    LeastUnique(s);
    var m :| IsLeast(m, s);
    m
  }

  /** The names of `s` in the order a resolver visits them: ascending, each exactly once. */
  function Ordered(s: set<string>): (r: seq<string>)
    ensures |r| == |s|
    ensures forall x :: x in r <==> x in s
    ensures forall i, j | 0 <= i < j < |r| :: Less(r[i], r[j])
    decreases s
  {
    if s == {} then []
    else
      var m := Least(s);
      var rest := Ordered(s - {m});
      assert forall j | 0 <= j < |rest| :: rest[j] in s - {m};
      [m] + rest
  }

  /** The ordered names, taken as a set, are the set. */
  lemma OrderedSet(s: set<string>)
    ensures (set x | x in Ordered(s)) == s
  {
    var r := Ordered(s);
    assert forall x :: x in (set y | y in r) <==> x in r;
  }

  lemma OrderedDistinct(s: set<string>)
    ensures forall i, j | 0 <= i < j < |Ordered(s)| :: Ordered(s)[i] != Ordered(s)[j]
  {
    var r := Ordered(s);
    forall i, j | 0 <= i < j < |r|
      ensures r[i] != r[j]
    {
      LessIrreflexive(r[i]);
    }
  }
}

=== FILE: parameterized_type.dfy ===
/**
  The processor's `ParameterizedType`: a raw type with an optional type parameter, used as the
  type part of an injection key. Types are identified by their JVM descriptors, which is what
  ASM's `Type.equals` compares and what `Type.toString` prints.
 */
module ParameterizedTypes {
  import opened Wrappers
  import Annotations

  type TypeName = Annotations.TypeName

  datatype ParameterizedType = ParameterizedType(raw: TypeName, parameter: Option<TypeName>)

  /** What `equals(Object)` may be handed: null, an instance of another class, or a parameterized type. */
  datatype Object = Null | OtherClass(className: string) | Parameterized(value: ParameterizedType)

  /** The one-argument constructor. */
  function Raw(t: TypeName): (p: ParameterizedType)
    ensures p.raw == t && p.parameter.None?
  {
    ParameterizedType(t, None)
  }

  /** `fromType`: the one-argument constructor under another name. */
  function FromType(t: TypeName): (p: ParameterizedType)
    ensures p.raw == t && p.parameter.None?
  {
    Raw(t)
  }

  /** `equals`: identity, then class check, then field-wise comparison through `EqualsBuilder`. */
  function Equals(p: ParameterizedType, other: Object): (r: bool)
  {
    match other
    case Parameterized(q) => q.raw == p.raw && q.parameter == p.parameter
    case _ => false
  }

  lemma EqualsIsEquivalence(p: ParameterizedType, q: ParameterizedType, s: ParameterizedType)
    ensures Equals(p, Parameterized(p))
    ensures Equals(p, Parameterized(q)) == Equals(q, Parameterized(p))
    ensures Equals(p, Parameterized(q)) && Equals(q, Parameterized(s)) ==> Equals(p, Parameterized(s))
    ensures !Equals(p, Null)
  {
  }

  /** `fromType(t)` and `new ParameterizedType(t)` are equal. */
  lemma FromTypeEqualsRaw(t: TypeName)
    ensures Equals(FromType(t), Parameterized(Raw(t)))
  {
  }

  /** Java `int` arithmetic: reduce `x` to the signed 32-bit range. */
  function Wrap(x: int): (r: int)
    ensures -0x8000_0000 <= r < 0x8000_0000
    ensures (r - x) % 0x1_0000_0000 == 0
  {
    var m := x % 0x1_0000_0000;
    if m >= 0x8000_0000 then m - 0x1_0000_0000 else m
  }

  /**
    `HashCodeBuilder(17, 37)` appending the raw type and then the parameter: each step multiplies
    the running total by 37 and adds the appended object's hash, or 0 for null. The hash of a
    type is a parameter of the model.
   */
  function Hash(p: ParameterizedType, typeHash: TypeName -> int): (h: int)
    ensures -0x8000_0000 <= h < 0x8000_0000
  {
    var afterRaw := Wrap(17 * 37 + typeHash(p.raw));
    Wrap(afterRaw * 37 + (match p.parameter case Some(t) => typeHash(t) case None => 0))
  }

  /** Equal values have equal hash codes, whatever the types hash to. */
  lemma EqualsImpliesSameHash(p: ParameterizedType, q: ParameterizedType, typeHash: TypeName -> int)
    requires Equals(p, Parameterized(q))
    ensures Hash(p, typeHash) == Hash(q, typeHash)
  {
  }

  /** `toString`: the raw type, followed by the parameter in angle brackets when there is one. */
  function ToString(p: ParameterizedType): (s: string)
    ensures p.parameter.None? ==> s == p.raw
    ensures p.parameter.Some? ==>
      && |s| == |p.raw| + |p.parameter.value| + 2 && s[..|p.raw|] == p.raw && s[|p.raw|] == '<' && s[|s| - 1] == '>'
      && s[|p.raw| + 1..|s| - 1] == p.parameter.value
  {
    match p.parameter
    case None => p.raw
    case Some(t) => p.raw + "<" + t + ">"
  }

  /** The index of the first `c` in `s`, if any. */
  function IndexOf(s: string, c: char): (r: Option<nat>)
    ensures r.Some? ==> r.value < |s| && s[r.value] == c && c !in s[..r.value]
    ensures r.None? ==> c !in s
  {
    if s == [] then None
    else if s[0] == c then Some(0)
    else match IndexOf(s[1..], c)
      case None => None
      case Some(i) => assert s[..i + 1] == [s[0]] + s[1..][..i]; Some(i + 1)
  }

  /** Reads a value back from its `toString` form. */
  function Parse(s: string): ParameterizedType {
    match IndexOf(s, '<')
    case Some(i) => if s[|s| - 1] == '>' && i < |s| - 1 then ParameterizedType(s[..i], Some(s[i + 1..|s| - 1])) else ParameterizedType(s, None)
    case None => ParameterizedType(s, None)
  }

  /**
    The raw type has no `<`. Class names that javac and kotlinc emit never contain one, but the
    JVM allows it in a class name (only method names exclude it), and for such a name the string
    form is ambiguous: see `AngleBracketBreaksParse`.
   */
  predicate NoAngleBracket(t: TypeName) {
    '<' !in t
  }

  /** `toString` loses nothing: a value whose raw type has no `<` can be read back from it. */
  lemma {:induction false} ParseToString(p: ParameterizedType)
    requires NoAngleBracket(p.raw)
    ensures Parse(ToString(p)) == p
  {
    var s := ToString(p);
    match p.parameter
    case None =>
    case Some(t) =>
      assert s[..|p.raw|] == p.raw;
      assert IndexOf(s, '<') == Some(|p.raw|) by {
        IndexOfFirst(s, '<', |p.raw|);
      }
      assert s[|p.raw| + 1..|s| - 1] == t;
  }

  /** The restriction is needed: the legal class name `a<b` makes the string read back as a different value. */
  lemma AngleBracketBreaksParse()
    ensures var p := ParameterizedType("La<b;", Some("Lc;"));
      && ToString(p) == "La<b;<Lc;>"
      && Parse(ToString(p)) == ParameterizedType("La", Some("b;<Lc;"))
      && Parse(ToString(p)) != p
  {
    var s := ToString(ParameterizedType("La<b;", Some("Lc;")));
    assert s == "La<b;<Lc;>";
    IndexOfFirst(s, '<', 2);
    assert s[..2] == "La" && s[3..|s| - 1] == "b;<Lc;";
  }

  lemma IndexOfFirst(s: string, c: char, i: nat)
    requires i < |s| && s[i] == c && c !in s[..i]
    ensures IndexOf(s, c) == Some(i)
  {
  }

  /** Consequently distinct values print differently, so the string form can serve as a key. */
  lemma ToStringInjective(p: ParameterizedType, q: ParameterizedType)
    requires NoAngleBracket(p.raw) && NoAngleBracket(q.raw)
    requires ToString(p) == ToString(q)
    ensures p == q
  {
    ParseToString(p);
    ParseToString(q);
  }
}

=== FILE: registry.dfy ===
/**
  The processor's `AnnotationRegistry`: per-type annotation defaults, and the resolver that
  applies them to annotation instances.

  The registry keeps two maps from annotation type to its defaults, one for defaults whose own
  values have not been resolved yet and one for defaults that have. Resolving an annotation
  looks up its type's defaults (promoting them from the first map to the second, resolving their
  values on the way), overlays the explicit values on them, recurses into nested annotations and
  arrays, and ANDs every `resolved` flag it meets. The registry is threaded through every call
  explicitly; the resolver's per-annotation scratch map and flag become results.
 */
module Registry {
  import opened Wrappers
  import opened Names
  import opened Annotations

  datatype Registry = Registry(unresolved: map<TypeName, AnnotationData>, resolved: map<TypeName, AnnotationData>)

  /** A result together with the resolver's `resolved` flag for it and the registry afterwards. */
  datatype Step<T> = Step(value: T, complete: bool, registry: Registry)

  /** `Validate.isTrue` failing in `addAnnotationDefaults`. */
  datatype RegistryError =
    | UnresolvedDefaultsExist(kind: TypeName)
    | ResolvedDefaultsExist(kind: TypeName)

  /** The two maps never declare defaults for the same type. */
  predicate Disjoint(reg: Registry) {
    reg.unresolved.Keys !! reg.resolved.Keys
  }

  /** Some defaults, resolved or not, are declared for `kind`. */
  predicate Known(reg: Registry, kind: TypeName) {
    kind in reg.unresolved || kind in reg.resolved
  }

  /**
    How a resolution may change the registry: defaults only move from the unresolved map to the
    resolved map, entries of the resolved map never change, the set of known types stays the
    same and the two maps stay disjoint.
   */
  ghost predicate Evolves(before: Registry, after: Registry) {
    && after.unresolved.Keys <= before.unresolved.Keys
    && (forall t | t in after.unresolved :: after.unresolved[t] == before.unresolved[t])
    && before.resolved.Keys <= after.resolved.Keys
    && (forall t | t in before.resolved :: after.resolved[t] == before.resolved[t])
    && after.unresolved.Keys + after.resolved.Keys == before.unresolved.Keys + before.resolved.Keys
    && (Disjoint(before) ==> Disjoint(after))
  }

  /**
    `w` is a resolution of `v`: primitives and strings pass through, arrays keep their length and
    order, and a nested annotation keeps its type and gains values without losing any of its
    explicit ones (each resolved in turn); an already-resolved nested annotation is unchanged.
   */
  ghost predicate ResolvesTo(v: Value<AnnotationData>, w: Value<AnnotationData>)
    decreases v
  {
    match v
    case Primitive(_) => w == v
    case Str(_) => w == v
    case Array(es) =>
      && w.Array?
      && |w.elements| == |es|
      && forall i | 0 <= i < |es| :: ResolvesTo(es[i], w.elements[i])
    case Nested(x) => w.Nested? && AnnotationResolvesTo(x, w.annotation)
  }

  ghost predicate AnnotationResolvesTo(x: AnnotationData, y: AnnotationData)
    decreases x
  {
    && y.kind == x.kind
    && (x.resolved ==> y == x)
    && (!x.resolved ==> x.values.Keys <= y.values.Keys)
    && (!x.resolved ==> forall k | k in x.values :: ResolvesTo(x.values[k], y.values[k]))
  }

  /** The resolver's flag contribution of one resolved value: every annotation at its top level is resolved. */
  predicate TopResolved(v: Value<AnnotationData>)
    decreases v
  {
    match v
    case Nested(x) => x.resolved
    case Array(es) => forall i | 0 <= i < |es| :: TopResolved(es[i])
    case _ => true
  }

  /** The defaults a resolution applied, as they stand in the registry it left behind. */
  ghost function UsedDefaults(applyDefaults: bool, kind: TypeName, after: Registry): Option<AnnotationData> {
    if applyDefaults && kind in after.resolved then Some(after.resolved[kind]) else None
  }

  /**
    The merge rule: the result has the input's type; its values are the defaults' values
    overlaid by the resolutions of the explicit values; it is resolved iff defaults were found
    and resolved (or none were asked for) and every top-level nested annotation is resolved.
   */
  ghost predicate Merged(a: AnnotationData, defaults: Option<AnnotationData>, applyDefaults: bool, r: AnnotationData) {
    && r.kind == a.kind
    && r.values.Keys == a.values.Keys + (if defaults.Some? then defaults.value.values.Keys else {})
    && (forall k | k in a.values :: ResolvesTo(a.values[k], r.values[k]))
    && (defaults.Some? ==> forall k | k in defaults.value.values && k !in a.values :: r.values[k] == defaults.value.values[k])
    && r.resolved == ((!applyDefaults || (defaults.Some? && defaults.value.resolved))
                      && forall k | k in a.values :: TopResolved(r.values[k]))
  }

  /** `addAnnotationDefaults`. */
  function AddAnnotationDefaults(reg: Registry, d: AnnotationData): (r: Result<Registry, RegistryError>)
    ensures r.Success? <==> (if d.resolved then d.kind !in reg.unresolved else d.kind !in reg.resolved)
    ensures r.Success? && d.resolved ==>
      && r.value.unresolved == reg.unresolved
      && d.kind in r.value.resolved && r.value.resolved[d.kind] == d
      && forall t | t in reg.resolved && t != d.kind :: t in r.value.resolved && r.value.resolved[t] == reg.resolved[t]
    ensures r.Success? && !d.resolved ==>
      && r.value.resolved == reg.resolved
      && d.kind in r.value.unresolved && r.value.unresolved[d.kind] == d
      && forall t | t in reg.unresolved && t != d.kind :: t in r.value.unresolved && r.value.unresolved[t] == reg.unresolved[t]
    ensures r.Success? && Disjoint(reg) ==> Disjoint(r.value)
  {
    if d.resolved then
      if d.kind in reg.unresolved then Failure(UnresolvedDefaultsExist(d.kind))
      else Success(reg.(resolved := reg.resolved[d.kind := d]))
    else
      if d.kind in reg.resolved then Failure(ResolvedDefaultsExist(d.kind))
      else Success(reg.(unresolved := reg.unresolved[d.kind := d]))
  }

  /** The unresolved map only ever shrinks: the first component of the resolver's termination measure. */
  predicate Shrinks(before: Registry, after: Registry) {
    after.unresolved.Keys <= before.unresolved.Keys
  }

  /** `resolveAnnotation`: an already-resolved annotation comes back unchanged, with the registry untouched. */
  function ResolveAnnotation(reg: Registry, a: AnnotationData): (r: Step<AnnotationData>)
    ensures a.resolved ==> r == Step(a, true, reg)
    ensures r.value.kind == a.kind
    ensures r.complete == r.value.resolved
    ensures Shrinks(reg, r.registry)
    decreases reg.unresolved.Keys, 1, a, 2
  {
    if a.resolved then Step(a, true, reg) else Resolve(reg, a, true)
  }

  /**
    `AnnotationResolver.resolve(annotation, applyDefaults)`: the defaults' values (when asked
    for and found) overlaid by the explicit values, each resolved, visited in name order.
   */
  function Resolve(reg: Registry, a: AnnotationData, applyDefaults: bool): (r: Step<AnnotationData>)
    ensures r.value.kind == a.kind
    ensures r.complete == r.value.resolved
    ensures !applyDefaults || !Known(reg, a.kind) ==> r.value.values.Keys == a.values.Keys
    ensures applyDefaults && !Known(reg, a.kind) ==> !r.value.resolved
    ensures Shrinks(reg, r.registry)
    decreases reg.unresolved.Keys, 1, a, 1
  {
    var found := if applyDefaults then ResolveDefaults(reg, a.kind) else (None, reg);
    var base := if found.0.Some? then found.0.value.values else map[];
    var baseFlag := !applyDefaults || (found.0.Some? && found.0.value.resolved);
    OrderedDistinct(a.values.Keys);
    var entries := ResolveEntries(found.1, a, Ordered(a.values.Keys));
    var data := AnnotationData(a.kind, base + entries.value, baseFlag && entries.complete);
    Step(data, data.resolved, entries.registry)
  }

  /**
    `resolveDefaults`: looks up the defaults of `kind`. Unresolved defaults are promoted: they
    are removed from the unresolved map before their own values are resolved (without applying
    defaults to them), and the result is put into the resolved map afterwards.
   */
  function ResolveDefaults(reg: Registry, kind: TypeName): (r: (Option<AnnotationData>, Registry))
    ensures r.0.Some? <==> Known(reg, kind)
    ensures kind in reg.resolved ==> r == (Some(reg.resolved[kind]), reg)
    ensures !Known(reg, kind) ==> r == (None, reg)
    ensures Shrinks(reg, r.1)
    decreases reg.unresolved.Keys, 0
  {
    if kind in reg.resolved then (Some(reg.resolved[kind]), reg)
    else if kind in reg.unresolved then
      var d := reg.unresolved[kind];
      var promoted := Promote(Taken(reg, kind), d);
      (Some(promoted.value), Promoted(promoted, kind))
    else (None, reg)
  }

  /** The registry while the defaults of `kind` are being resolved: `kind` is in neither map. */
  function Taken(reg: Registry, kind: TypeName): (r: Registry)
    ensures kind !in r.unresolved && r.unresolved.Keys == reg.unresolved.Keys - {kind}
    ensures forall t | t in r.unresolved :: r.unresolved[t] == reg.unresolved[t]
    ensures r.resolved == reg.resolved
  {
    reg.(unresolved := reg.unresolved - {kind})
  }

  /** Resolving taken defaults: already-resolved ones are kept as they are, others resolved without defaults. */
  function Promote(taken: Registry, d: AnnotationData): (r: Step<AnnotationData>)
    ensures Shrinks(taken, r.registry)
    ensures d.resolved ==> r == Step(d, true, taken)
    ensures !d.resolved ==> r.value.kind == d.kind && r.value.values.Keys == d.values.Keys && r.complete == r.value.resolved
    decreases taken.unresolved.Keys, 1, d, 2
  {
    if d.resolved then Step(d, true, taken) else Resolve(taken, d, false)
  }

  /** The registry after a promotion: the resolved defaults of `kind` are stored. */
  function Promoted(promoted: Step<AnnotationData>, kind: TypeName): (r: Registry)
    ensures kind in r.resolved && r.resolved[kind] == promoted.value
    ensures r.unresolved == promoted.registry.unresolved
  {
    promoted.registry.(resolved := promoted.registry.resolved[kind := promoted.value])
  }

  /** The loop of `resolve` over the explicit values, visiting `keys` in order. */
  function ResolveEntries(reg: Registry, a: AnnotationData, keys: seq<string>): (r: Step<map<string, Value<AnnotationData>>>)
    requires forall k | k in keys :: k in a.values
    ensures r.value.Keys == set k | k in keys
    ensures Shrinks(reg, r.registry)
    decreases reg.unresolved.Keys, 1, a, 0, |keys|
  {
    if keys == [] then Step(map[], true, reg)
    else
      var head := ResolveObject(reg, a.values[keys[0]]);
      var rest := ResolveEntries(head.registry, a, keys[1..]);
      assert (set k | k in keys) == {keys[0]} + set k | k in keys[1..];
      Step(rest.value[keys[0] := head.value], head.complete && rest.complete, rest.registry)
  }

  /** `resolveObject`: nested annotations are resolved, arrays element-wise, everything else passes through. */
  function ResolveObject(reg: Registry, v: Value<AnnotationData>): (r: Step<Value<AnnotationData>>)
    ensures !v.Nested? && !v.Array? ==> r == Step(v, true, reg)
    ensures v.Nested? ==> r.value.Nested? && r.value.annotation.kind == v.annotation.kind
    ensures v.Array? ==> r.value.Array? && |r.value.elements| == |v.elements|
    ensures Shrinks(reg, r.registry)
    decreases reg.unresolved.Keys, 1, v, 1
  {
    match v
    case Nested(x) =>
      var n := ResolveAnnotation(reg, x);
      Step(Nested(n.value), n.value.resolved, n.registry)
    case Array(es) =>
      var elements := ResolveArray(reg, es);
      Step(Array(elements.value), elements.complete, elements.registry)
    case _ => Step(v, true, reg)
  }

  /** `resolveArray`: element by element, in order. */
  function ResolveArray(reg: Registry, es: seq<Value<AnnotationData>>): (r: Step<seq<Value<AnnotationData>>>)
    ensures |r.value| == |es|
    ensures Shrinks(reg, r.registry)
    decreases reg.unresolved.Keys, 1, es, 0
  {
    if es == [] then Step([], true, reg)
    else
      var head := ResolveObject(reg, es[0]);
      var rest := ResolveArray(head.registry, es[1..]);
      Step([head.value] + rest.value, head.complete && rest.complete, rest.registry)
  }

  // ---------------------------------------------------------------------------------------
  // How a resolution changes the registry.

  lemma {:induction false} AnnotationEvolves(reg: Registry, a: AnnotationData)
    ensures Evolves(reg, ResolveAnnotation(reg, a).registry)
    decreases reg.unresolved.Keys, 1, a, 2
  {
    if !a.resolved {
      ResolveEvolves(reg, a, true);
    }
  }

  lemma {:induction false} ResolveEvolves(reg: Registry, a: AnnotationData, applyDefaults: bool)
    ensures Evolves(reg, Resolve(reg, a, applyDefaults).registry)
    decreases reg.unresolved.Keys, 1, a, 1
  {
    var found := if applyDefaults then ResolveDefaults(reg, a.kind) else (None, reg);
    if applyDefaults {
      DefaultsEvolve(reg, a.kind);
    }
    OrderedDistinct(a.values.Keys);
    EntriesEvolve(found.1, a, Ordered(a.values.Keys));
    EvolvesTransitive(reg, found.1, ResolveEntries(found.1, a, Ordered(a.values.Keys)).registry);
  }

  lemma {:induction false} DefaultsEvolve(reg: Registry, kind: TypeName)
    ensures Evolves(reg, ResolveDefaults(reg, kind).1)
    decreases reg.unresolved.Keys, 0
  {
    if kind !in reg.resolved && kind in reg.unresolved {
      var taken := Taken(reg, kind);
      var d := reg.unresolved[kind];
      PromoteEvolves(taken, d);
      PromotionEvolves(reg, kind, Promote(taken, d).registry, Promoted(Promote(taken, d), kind));
    }
  }

  lemma {:induction false} PromoteEvolves(taken: Registry, d: AnnotationData)
    ensures Evolves(taken, Promote(taken, d).registry)
    decreases taken.unresolved.Keys, 1, d, 2
  {
    if !d.resolved {
      ResolveEvolves(taken, d, false);
    }
  }

  /**
    Looking up defaults promotes them: a known type ends up in the resolved map, holding the
    defaults that were returned, and (when it was unresolved) no longer in the unresolved map.
   */
  lemma DefaultsPromoted(reg: Registry, kind: TypeName)
    ensures var r := ResolveDefaults(reg, kind);
      && (Known(reg, kind) ==> kind in r.1.resolved && r.1.resolved[kind] == r.0.value)
      && (kind in reg.unresolved && kind !in reg.resolved ==> kind !in r.1.unresolved)
  {
  }

  lemma {:induction false} EntriesEvolve(reg: Registry, a: AnnotationData, keys: seq<string>)
    requires forall k | k in keys :: k in a.values
    requires forall i, j | 0 <= i < j < |keys| :: keys[i] != keys[j]
    ensures Evolves(reg, ResolveEntries(reg, a, keys).registry)
    decreases reg.unresolved.Keys, 1, a, 0, |keys|
  {
    if keys != [] {
      var head := ResolveObject(reg, a.values[keys[0]]);
      ObjectEvolves(reg, a.values[keys[0]]);
      EntriesEvolve(head.registry, a, keys[1..]);
      EvolvesTransitive(reg, head.registry, ResolveEntries(head.registry, a, keys[1..]).registry);
    }
  }

  lemma {:induction false} ObjectEvolves(reg: Registry, v: Value<AnnotationData>)
    ensures Evolves(reg, ResolveObject(reg, v).registry)
    decreases reg.unresolved.Keys, 1, v, 1
  {
    match v
    case Nested(x) => AnnotationEvolves(reg, x);
    case Array(es) => ArrayEvolves(reg, es);
    case _ =>
  }

  lemma {:induction false} ArrayEvolves(reg: Registry, es: seq<Value<AnnotationData>>)
    ensures Evolves(reg, ResolveArray(reg, es).registry)
    decreases reg.unresolved.Keys, 1, es, 0
  {
    if es != [] {
      var head := ResolveObject(reg, es[0]);
      ObjectEvolves(reg, es[0]);
      ArrayEvolves(head.registry, es[1..]);
      EvolvesTransitive(reg, head.registry, ResolveArray(head.registry, es[1..]).registry);
    }
  }

  lemma EvolvesTransitive(a: Registry, b: Registry, c: Registry)
    requires Evolves(a, b) && Evolves(b, c)
    ensures Evolves(a, c)
  {
  }

  /** Removing `kind` from the unresolved map and putting its promotion into the resolved map is an evolution. */
  lemma PromotionEvolves(reg: Registry, kind: TypeName, mid: Registry, after: Registry)
    requires kind !in reg.resolved && kind in reg.unresolved
    requires Evolves(Taken(reg, kind), mid)
    requires after.unresolved == mid.unresolved && after.resolved.Keys == mid.resolved.Keys + {kind}
    requires forall t | t in mid.resolved :: after.resolved[t] == mid.resolved[t]
    ensures Evolves(reg, after)
  {
    var taken := Taken(reg, kind);
    calc {
      after.unresolved.Keys + after.resolved.Keys;
      mid.unresolved.Keys + mid.resolved.Keys + {kind};
      taken.unresolved.Keys + taken.resolved.Keys + {kind};
      reg.unresolved.Keys + reg.resolved.Keys;
    }
  }

  // ---------------------------------------------------------------------------------------
  // What a resolution computes.

  lemma {:induction false} ObjectResolves(reg: Registry, v: Value<AnnotationData>)
    ensures var r := ResolveObject(reg, v);
      ResolvesTo(v, r.value) && r.complete == TopResolved(r.value)
    decreases reg.unresolved.Keys, 1, v, 1
  {
    match v
    case Nested(x) => AnnotationResolves(reg, x);
    case Array(es) => ArrayResolves(reg, es);
    case _ =>
  }

  lemma {:induction false} ArrayResolves(reg: Registry, es: seq<Value<AnnotationData>>)
    ensures var r := ResolveArray(reg, es);
      && (forall i | 0 <= i < |es| :: ResolvesTo(es[i], r.value[i]))
      && r.complete == forall i | 0 <= i < |es| :: TopResolved(r.value[i])
    decreases reg.unresolved.Keys, 1, es, 0
  {
    if es != [] {
      var head := ResolveObject(reg, es[0]);
      ObjectResolves(reg, es[0]);
      ArrayResolves(head.registry, es[1..]);
      var rest := ResolveArray(head.registry, es[1..]);
      assert forall i | 1 <= i < |es| :: es[i] == es[1..][i - 1] && ResolveArray(reg, es).value[i] == rest.value[i - 1];
    }
  }

  lemma {:induction false} EntriesResolve(reg: Registry, a: AnnotationData, keys: seq<string>)
    requires forall k | k in keys :: k in a.values
    requires forall i, j | 0 <= i < j < |keys| :: keys[i] != keys[j]
    ensures var r := ResolveEntries(reg, a, keys);
      && (forall k | k in r.value :: ResolvesTo(a.values[k], r.value[k]))
      && r.complete == forall k | k in r.value :: TopResolved(r.value[k])
    decreases reg.unresolved.Keys, 1, a, 0, |keys|
  {
    if keys != [] {
      var head := ResolveObject(reg, a.values[keys[0]]);
      ObjectResolves(reg, a.values[keys[0]]);
      EntriesResolve(head.registry, a, keys[1..]);
      var rest := ResolveEntries(head.registry, a, keys[1..]);
      ExtendEntries(a, keys[0], head.value, head.complete, rest.value, rest.complete);
    }
  }

  lemma {:induction false} AnnotationResolves(reg: Registry, a: AnnotationData)
    ensures AnnotationResolvesTo(a, ResolveAnnotation(reg, a).value)
    decreases reg.unresolved.Keys, 1, a, 2
  {
    if !a.resolved {
      ResolveMerged(reg, a, true);
    }
  }

  lemma {:induction false} ResolveMerged(reg: Registry, a: AnnotationData, applyDefaults: bool)
    ensures var r := Resolve(reg, a, applyDefaults);
      Merged(a, UsedDefaults(applyDefaults, a.kind, r.registry), applyDefaults, r.value)
    decreases reg.unresolved.Keys, 1, a, 1, 2
  {
    DefaultsUsed(reg, a, applyDefaults);
    MergedWithFound(reg, a, applyDefaults);
  }

  /** The defaults a resolution used, read off the registry it leaves, are the ones its lookup returned. */
  lemma DefaultsUsed(reg: Registry, a: AnnotationData, applyDefaults: bool)
    ensures UsedDefaults(applyDefaults, a.kind, Resolve(reg, a, applyDefaults).registry) ==
      if applyDefaults then ResolveDefaults(reg, a.kind).0 else None
  {
    var found := if applyDefaults then ResolveDefaults(reg, a.kind) else (None, reg);
    OrderedDistinct(a.values.Keys);
    var keys := Ordered(a.values.Keys);
    ResolveShape(reg, a, applyDefaults);
    if applyDefaults {
      DefaultsPromoted(reg, a.kind);
      DefaultsEvolve(reg, a.kind);
    }
    EntriesEvolve(found.1, a, keys);
  }

  /** The result of `resolve` merges the explicit values into the defaults its lookup returned. */
  lemma {:induction false} MergedWithFound(reg: Registry, a: AnnotationData, applyDefaults: bool)
    ensures Merged(a, if applyDefaults then ResolveDefaults(reg, a.kind).0 else None, applyDefaults, Resolve(reg, a, applyDefaults).value)
    decreases reg.unresolved.Keys, 1, a, 1, 1
  {
    var found := if applyDefaults then ResolveDefaults(reg, a.kind) else (None, reg);
    OrderedDistinct(a.values.Keys);
    EntriesResolve(found.1, a, Ordered(a.values.Keys));
    MergedFrom(reg, a, applyDefaults, found);
  }

  /** `MergedWithFound` for a given outcome `found` of the defaults lookup, once the walk over the values is known to resolve them. */
  lemma MergedFrom(reg: Registry, a: AnnotationData, applyDefaults: bool, found: (Option<AnnotationData>, Registry))
    requires found == if applyDefaults then ResolveDefaults(reg, a.kind) else (None, reg)
    requires var entries := ResolveEntries(found.1, a, Ordered(a.values.Keys));
      && (forall k | k in entries.value :: ResolvesTo(a.values[k], entries.value[k]))
      && entries.complete == forall k | k in entries.value :: TopResolved(entries.value[k])
    ensures Merged(a, found.0, applyDefaults, Resolve(reg, a, applyDefaults).value)
  {
    var entries := ResolveEntries(found.1, a, Ordered(a.values.Keys));
    var r := Resolve(reg, a, applyDefaults).value;
    assert r == AnnotationData(a.kind, (if found.0.Some? then found.0.value.values else map[]) + entries.value,
                               (!applyDefaults || (found.0.Some? && found.0.value.resolved)) && entries.complete) by {
      ResolveShape(reg, a, applyDefaults);
    }
    OrderedSet(a.values.Keys);
    OverlayIsMerged(a, found.0, applyDefaults, entries.value, entries.complete, r);
  }

  /**
    Promoting unresolved defaults resolves them without defaults of their own: the result keeps
    their type and exactly their values, each resolved, and is resolved iff every nested
    annotation at its top level is.
   */
  lemma PromoteMerged(taken: Registry, d: AnnotationData)
    requires !d.resolved
    ensures Merged(d, None, false, Promote(taken, d).value)
  {
    MergedWithFound(taken, d, false);
  }

  /** `resolve` unfolded once: the defaults found, overlaid by the walk over the explicit values. */
  lemma ResolveShape(reg: Registry, a: AnnotationData, applyDefaults: bool)
    ensures var found := if applyDefaults then ResolveDefaults(reg, a.kind) else (None, reg);
      var entries := ResolveEntries(found.1, a, Ordered(a.values.Keys));
      var flag := (!applyDefaults || (found.0.Some? && found.0.value.resolved)) && entries.complete;
      Resolve(reg, a, applyDefaults) ==
        Step(AnnotationData(a.kind, (if found.0.Some? then found.0.value.values else map[]) + entries.value, flag), flag, entries.registry)
  {
  }

  /** Overlaying resolved explicit values on the defaults' values satisfies the merge rule. */
  lemma OverlayIsMerged(a: AnnotationData, defaults: Option<AnnotationData>, applyDefaults: bool,
                        entries: map<string, Value<AnnotationData>>, complete: bool, r: AnnotationData)
    requires applyDefaults || defaults.None?
    requires entries.Keys == a.values.Keys
    requires forall k | k in entries :: ResolvesTo(a.values[k], entries[k])
    requires complete == forall k | k in entries :: TopResolved(entries[k])
    requires r == AnnotationData(a.kind, (if defaults.Some? then defaults.value.values else map[]) + entries,
                                 (!applyDefaults || (defaults.Some? && defaults.value.resolved)) && complete)
    ensures Merged(a, defaults, applyDefaults, r)
  {
  }

  /** Adding one resolved explicit value to the entries resolved so far keeps the loop's promises. */
  lemma ExtendEntries(a: AnnotationData, k: string, v: Value<AnnotationData>, vComplete: bool,
                      entries: map<string, Value<AnnotationData>>, complete: bool)
    requires k in a.values && k !in entries
    requires ResolvesTo(a.values[k], v) && vComplete == TopResolved(v)
    requires forall j | j in entries :: j in a.values && ResolvesTo(a.values[j], entries[j])
    requires complete == forall j | j in entries :: TopResolved(entries[j])
    ensures var m := entries[k := v];
      && (forall j | j in m :: ResolvesTo(a.values[j], m[j]))
      && (vComplete && complete) == forall j | j in m :: TopResolved(m[j])
  {
  }

  // ---------------------------------------------------------------------------------------
  // The registry's promises, stated once for callers.

  /**
    `resolveAnnotation` as a whole: a resolved annotation is returned unchanged and the
    registry untouched; otherwise the result follows the merge rule against the defaults the
    resolution promoted, its type's defaults are in the resolved map iff any were declared (and
    out of the unresolved map), and the registry evolves.
   */
  lemma ResolveAnnotationContract(reg: Registry, a: AnnotationData)
    ensures var r := ResolveAnnotation(reg, a);
      && (a.resolved ==> r.value == a && r.registry == reg)
      && (!a.resolved ==> Merged(a, UsedDefaults(true, a.kind, r.registry), true, r.value))
      && (!a.resolved ==> (Known(reg, a.kind) <==> a.kind in r.registry.resolved))
      && (!a.resolved && Disjoint(reg) ==> a.kind !in r.registry.unresolved)
      && Evolves(reg, r.registry)
  {
    AnnotationEvolves(reg, a);
    if !a.resolved {
      ResolveMerged(reg, a, true);
      var found := ResolveDefaults(reg, a.kind);
      DefaultsPromoted(reg, a.kind);
      DefaultsEvolve(reg, a.kind);
      OrderedDistinct(a.values.Keys);
      EntriesEvolve(found.1, a, Ordered(a.values.Keys));
    }
  }

  /** Each explicit value is resolved by `resolveObject` against some registry the walk evolved into. */
  lemma {:induction false} EntryResolvedUnder(reg: Registry, a: AnnotationData, keys: seq<string>, k: string)
    requires forall j | j in keys :: j in a.values
    requires forall i, j | 0 <= i < j < |keys| :: keys[i] != keys[j]
    requires k in keys
    ensures exists mid :: Evolves(reg, mid) && ResolveEntries(reg, a, keys).value[k] == ResolveObject(mid, a.values[k]).value
    decreases |keys|
  {
    if keys[0] == k {
      assert Evolves(reg, reg);
    } else {
      var head := ResolveObject(reg, a.values[keys[0]]);
      ObjectEvolves(reg, a.values[keys[0]]);
      assert k in keys[1..];
      EntryResolvedUnder(head.registry, a, keys[1..], k);
      assert ResolveEntries(reg, a, keys).value[k] == ResolveEntries(head.registry, a, keys[1..]).value[k];
      var mid :| Evolves(head.registry, mid) && ResolveEntries(head.registry, a, keys[1..]).value[k] == ResolveObject(mid, a.values[k]).value;
      EvolvesTransitive(reg, head.registry, mid);
    }
  }

  /**
    Self-referential defaults do not loop: when the defaults of `kind` hold an annotation of
    `kind` itself, that annotation is resolved while `kind` is in neither map, so it comes out
    unresolved and carrying only its own explicit values, and the promoted defaults stay unresolved.
   */
  lemma SelfReferenceStaysUnresolved(reg: Registry, kind: TypeName, name: string)
    requires kind in reg.unresolved && kind !in reg.resolved
    requires !reg.unresolved[kind].resolved
    requires name in reg.unresolved[kind].values && reg.unresolved[kind].values[name].Nested?
    requires reg.unresolved[kind].values[name].annotation.kind == kind
    requires !reg.unresolved[kind].values[name].annotation.resolved
    ensures var r := ResolveDefaults(reg, kind);
      && r.0.Some? && !r.0.value.resolved
      && name in r.0.value.values && r.0.value.values[name].Nested?
      && var x := reg.unresolved[kind].values[name].annotation;
         var y := r.0.value.values[name].annotation;
         y.kind == kind && !y.resolved && y.values.Keys == x.values.Keys
  {
    var d := reg.unresolved[kind];
    var x := d.values[name].annotation;
    var taken := Taken(reg, kind);
    assert !Known(taken, kind);
    OrderedDistinct(d.values.Keys);
    var keys := Ordered(d.values.Keys);
    EntryResolvedUnder(taken, d, keys, name);
    var entries := ResolveEntries(taken, d, keys);
    var mid :| Evolves(taken, mid) && entries.value[name] == ResolveObject(mid, d.values[name]).value;
    WithoutDefaults(mid, x);
    var promoted := Resolve(taken, d, false);
    assert promoted.value.values == map[] + entries.value;
    assert ResolveDefaults(reg, kind).0 == Some(promoted.value);
    ResolveMerged(taken, d, false);
  }

  /** An unresolved annotation whose type has no declared defaults resolves to an unresolved one with only its explicit values. */
  lemma WithoutDefaults(reg: Registry, x: AnnotationData)
    requires !Known(reg, x.kind) && !x.resolved
    ensures var y := ResolveObject(reg, Nested(x)).value;
      && y.Nested? && y.annotation.kind == x.kind
      && !y.annotation.resolved && !TopResolved(y)
      && y.annotation.values.Keys == x.values.Keys
  {
  }
}

=== FILE: wrappers.dfy ===
/** Failure-compatible wrappers shared by every module of the model. */
module Wrappers {

  /** A value that may be absent: Java's nullable references. */
  datatype Option<+T> = None | Some(value: T) {

    predicate IsFailure() {
      None?
    }

    function PropagateFailure<U>(): Option<U>
      requires None?
    {
      None
    }

    function Extract(): T
      requires Some?
    {
      value
    }
  }

  /** The outcome of an operation that may throw: a value, or the error it throws. */
  datatype Result<+R, +E> = Success(value: R) | Failure(error: E) {

    predicate IsFailure() {
      Failure?
    }

    function PropagateFailure<U>(): Result<U, E>
      requires Failure?
    {
      Failure(error)
    }

    function Extract(): R
      requires Success?
    {
      value
    }
  }
}
